=== FILE: README.md ===
# PyDSS core, modelled in Dafny

PyDSS runs time-series simulations of electrical distribution circuits on top of
an external circuit solver (OpenDSS). This project models the parts of PyDSS
that decide things on their own, without the solver, and proves properties
about them.

- **Export-list configuration** (`ExportList`, `ExportReader`). An
  `ExportListProperty` is one `(element class, property)` row of the export
  configuration. It has a storage policy, an optional name filter (`names` or
  `name_regexes`) and an optional value filter (`limits` with
  `limits_filter`), and it rejects malformed fragments with
  `InvalidConfiguration`. The `ExportListReader` loads a current or legacy
  document into an ordered, read-only query surface. Unknown classes and
  properties give `InvalidParameter`. The legacy schema adds the
  `publicationList`.
- **Configuration enumerations** (`Common`). The string-valued enumerations of
  `PyDSS/common.py` and the file names derived from them.
- **The motor-stall controller** (`MotorStall`). A "Type D" air-conditioner
  motor that stalls on low voltage, trips after a protection time and
  reconnects after a reconnect time. Each `Update` call is a transition on a
  state value.
- **The pure steps of the automated voltage-upgrade post-processor**:
  - `Violations`: the violation count, the severity and the objective
    `severity_indices`;
  - `SettingSelection`: the best-setting selection after a sweep, and the split
    of its key;
  - `DistanceMatrix`: the upper-triangular distance rows and their expansion
    to a square matrix;
  - `UpstreamNodes`: the common upstream nodes of a cluster, and the nodes
    trialled for a new regulator;
  - `LineUnits`: the line-unit conversion table and the log of upgrade
    commands.
  - `BusNames`: the lower-casing of bus names that the violation tally and
    the regulator-node search share.

The solver is never modelled. What the source reads from it becomes a
parameter:

- per-bus voltages become `seq<seq<seq<real>>>`, indexed by time point, bus
  and phase;
- shortest paths and path lengths become functions;
- the element's `VoltagesMagAng` and the solver clock become arguments of
  `MotorStall.Update`;
- regular-expression search becomes a `matches(pattern, name)` function.

`outcomes.dfy` holds `Option`, `Result` (`Ok`/`Err`) and the error kinds:
`InvalidConfiguration`, `InvalidParameter`, `IndexError` for Python's
`list index out of range`, and `ValueError` for `max` of an empty sequence.

The source of `PyDSS/export_list_reader.py` is not part of this model. The two
export modules follow the behaviour that `tests/test_export_list_reader.py`
pins down. Where the tests leave something open, the model makes its own
choice:

- `limits` without `limits_filter` is refused, because the tests fix no
  default band policy;
- both document layouts are normalised to the same ordered class list, so
  they give the same query answers.

Everything else follows the code as written, including two places where it
differs from what its names or comments suggest (see "## Findings" and the
notes on `minv_dev` and the socket/transformer file names below).

## Model

| member | source | states |
|---|---|---|
| `Common.EnumFromValue` | PyDSS/common.py:16-39 | Looking a value up in the three value tables gives back only a member whose value is that string. |
| `Common.ValueRoundTrip` | PyDSS/common.py:16-39 | Every member of `VisualizationType`, `ControllerType` and `ExportMode` is found again from its value. The 14 values are distinct across the three enumerations. |
| `Common.FilenameFromEnum` | PyDSS/common.py:42-43 | `filename_from_enum` is the member's value followed by `.toml`, and nothing else. |
| `Common.EnumFromFilename` | PyDSS/common.py:42-43 | Inverse of `filename_from_enum`: a file name it accepts is the file name of the member it returns. |
| `Common.FilenameRoundTrip` | PyDSS/common.py:42-43 | Every member's file name maps back to that member. |
| `Common.FilenameInjective` | PyDSS/common.py:42-43 | Two members have the same file name exactly when they are the same member. |
| `Common.DerivedFilenames` | PyDSS/common.py:46-52 | The derived file-name constants, spelled out. `SOCKET_CONTROLLER_FILENAME` is `xmfrController.toml` and `XMFR_CONTROLLER_FILENAME` is `SocketController.toml`, as written. |
| `Common.ControllerTypesInOrder` | PyDSS/common.py:26-33 | `CONTROLLER_TYPES` holds the four controller values once each, in declaration order, and contains every member's value. |
| `ExportList.AnyMatchesIffSome` | tests/test_export_list_reader.py:43-48 | The regex loop keeps a name exactly when at least one pattern is found in it. |
| `ExportList.ParseNameList` | tests/test_export_list_reader.py:32-40 | `names` and `name_regexes` are accepted exactly when they are lists of strings, and their contents are kept in order. Anything else, a bare string included, is `InvalidConfiguration`. |
| `ExportList.ParseLimits` | tests/test_export_list_reader.py:57-80 | `limits` is accepted exactly when it is a list of two numbers, which become `min` and `max`. Anything else is `InvalidConfiguration`. |
| `ExportList.NewProperty` | tests/test_export_list_reader.py:32-80 | Construction succeeds exactly when both filters parse. Every failure is `InvalidConfiguration`. It fails for `names` together with `name_regexes`, for `names` that is not a list, for bad `limits`, and for `limits` without `limits_filter`. On success the class and property are kept and the store type defaults to `ALL`. |
| `ExportList.NamesFilterIsMembership` | tests/test_export_list_reader.py:32-37 | With a `names` list, `should_store_name(n)` holds exactly when `n` is one of the listed names. |
| `ExportList.BareStringNamesRefused` | tests/test_export_list_reader.py:39-40 | `{"names": "bus1"}` is refused with `InvalidConfiguration`. |
| `ExportList.NameRegexesMatchAny` | tests/test_export_list_reader.py:43-48 | With `name_regexes`, the filter holds the configured pattern strings in order, and a name is stored exactly when one of those configured patterns matches it. |
| `ExportList.NamesAndRegexesRefused` | tests/test_export_list_reader.py:51-54 | `names` together with `name_regexes` is always `InvalidConfiguration`, whatever their values. |
| `ExportList.LimitsBand` | tests/test_export_list_reader.py:57-74 | `limits [a, b]` exposes `min == a` and `max == b`. `OUTSIDE` stores exactly `v < a or v > b`; `INSIDE` stores exactly `a <= v <= b`. |
| `ExportList.OutsideComplementsInside` | tests/test_export_list_reader.py:57-74 | For the same limits, every value is stored by exactly one of `OUTSIDE` and `INSIDE`. |
| `ExportList.BadLimitsRefused` | tests/test_export_list_reader.py:76-80 | `limits` that is not a two-element list (`[1.0]`, `1.0`) is `InvalidConfiguration`. |
| `ExportList.UnfilteredStoresEverything` | tests/test_export_list_reader.py:21-24 | An empty fragment builds a property with store type `ALL` that stores every name and every value. |
| `ExportList.NoLimitsStoresEveryValue` | tests/test_export_list_reader.py:21-24 | Without `limits`, a valid property has no value band and stores every value, whatever its name filter. |
| `ExportList.NoNameFilterStoresEveryName` | tests/test_export_list_reader.py:21-24 | Without `names` and `name_regexes`, a valid property has no name filter and stores every name, whatever its value filter. |
| `ExportReader.BuildProperties` | tests/test_export_list_reader.py:15-24 | A class's properties are built in declared order. The build succeeds exactly when every fragment is valid, and each built property is the one its fragment constructs. |
| `ExportReader.BuildClasses` | tests/test_export_list_reader.py:15-24 | Every class is built in declared order. One invalid fragment anywhere aborts the load with `InvalidConfiguration`. |
| `ExportReader.Load` | tests/test_export_list_reader.py:83-100 | Loading succeeds exactly when every fragment is valid. A current document has an empty `publicationList`. A legacy one has one `"Class Property"` string per declared publication, in order. |
| `ExportReader.ListElementClasses` | tests/test_export_list_reader.py:17-18 | `list_element_classes` gives the loaded class names in order. |
| `ExportReader.ListElementProperties` | tests/test_export_list_reader.py:19-20 | `list_element_properties(c)` fails exactly when `c` is not a listed class, and then with `InvalidParameter`. |
| `ExportReader.GetElementProperty` | tests/test_export_list_reader.py:21-29 | `get_element_property(c, p)` succeeds exactly when `c` is listed and `p` is among its properties, and then returns the property named `p`. Otherwise it fails with `InvalidParameter`. |
| `ExportReader.LoadKeepsDeclaredOrder` | tests/test_export_list_reader.py:83-88 | After a load, the classes and each class's properties come back in the document's declared order. |
| `ExportReader.LookupMatchesDocument` | tests/test_export_list_reader.py:21-29 | A loaded reader answers `get_element_property` exactly for the declared (class, property) pairs, with the property that pair's fragment constructs. |
| `ExportReader.SchemasAgree` | tests/test_export_list_reader.py:83-92 | A legacy document and a current document with the same classes load or fail together, and then give identical class lists, property lists and lookups. This covers only the shared normalisation after decoding; telling the two layouts apart is left out. |
| `MotorStall.Init` | PyDSS/pyControllers/Controllers/MotorStall.py:38-51 | The controller starts neither stalled nor disconnected, with both clocks at 0. The load is set to `model 2`, `vminpu 0` and the rated kW/kvar. |
| `MotorStall.Magnitudes` | PyDSS/pyControllers/Controllers/MotorStall.py:56 | The slice `[::2]` of the voltage reading: one entry per magnitude-angle pair (rounded up), entry `k` being element `2k`. |
| `MotorStall.PerUnitVoltage` | PyDSS/pyControllers/Controllers/MotorStall.py:56 | The per-unit voltage times 120 is one of the phase magnitudes (the even entries of `VoltagesMagAng`) and is at least every one of them. |
| `MotorStall.Update` | PyDSS/pyControllers/Controllers/MotorStall.py:53-90 | Returns 0.1 exactly when a priority-0 call finds a non-stalled motor below `Vstall`. Each transition is stated as the whole new state. The trigger sets the fault load (`kw*Pfault`, `kw*Qfault`, model 1), the stall flag and the stall start, and nothing else. At priority 1, a stall older than `Tprotection` trips: the elapsed time is recorded, the stall flag clears, the motor is disconnected with zero power, and the disconnect time is set. At priority 2, a disconnection older than `Treconnect` clears the flag and restores the rated load; the stall flag and both timestamps are kept. A priority-1 call on a stalled motor that does not trip records the elapsed stall time and changes nothing else; on a motor that is not stalled it changes nothing. Every other call changes nothing. |
| `MotorStall.TryUpdate` | PyDSS/pyControllers/Controllers/MotorStall.py:53-57 | A priority-0 call with no voltage reading fails with `ValueError`, whether or not the motor is stalled. Every other call succeeds with exactly the state and return value of `Update`. At priorities other than 0 the reading does not matter. |
| `MotorStall.UpdatePreservesConsistency` | PyDSS/pyControllers/Controllers/MotorStall.py:53-90 | The state's invariant survives every call: running carries the rated load, tripped carries no power, stalled while disconnected carries the fault load, and `vminpu` stays 0. |
| `MotorStall.RunIsConsistent` | PyDSS/pyControllers/Controllers/MotorStall.py:30-90 | Every state reached from construction by any call sequence satisfies the invariant and keeps the rated kW/kvar. |
| `MotorStall.StallNotRetriggered` | PyDSS/pyControllers/Controllers/MotorStall.py:59-67 | A priority-0 call on a stalled motor changes nothing and returns 0, so the stall start time stands. |
| `MotorStall.StalledWhileDisconnectedReachable` | PyDSS/pyControllers/Controllers/MotorStall.py:59-77 | A concrete call sequence stalls, trips and stalls again while still disconnected. The priority-0 guard tests `stall` only. |
| `LineUnits.ConvertLength` | PyDSS/pyPostprocessor/PostprocessScripts/AutomatedVoltageUpgrade.py:593-606 | The length is scaled by the metres-per-unit factor of unit codes 1-7. Any other code leaves it unchanged. |
| `LineUnits.ConvertKeepsOrder` | PyDSS/pyPostprocessor/PostprocessScripts/AutomatedVoltageUpgrade.py:593-607 | For a fixed unit code the conversion is strictly increasing and injective. |
| `LineUnits.AppendUpgrade` | PyDSS/pyPostprocessor/PostprocessScripts/AutomatedVoltageUpgrade.py:937-939 | `write_dss_file` keeps the earlier log lines and appends the command followed by a newline. |
| `LineUnits.Record` | PyDSS/pyPostprocessor/PostprocessScripts/AutomatedVoltageUpgrade.py:98-100 | The log starts with the constructor's header comment line and then holds one line per recorded command. |
| `LineUnits.RecordRoundTrip` | PyDSS/pyPostprocessor/PostprocessScripts/AutomatedVoltageUpgrade.py:937-944 | Read back line by line without the newlines, the log gives the constructor's header comment first and then the recorded commands in recording order. |
| `Extrema.MaxOf` | PyDSS/pyPostprocessor/PostprocessScripts/AutomatedVoltageUpgrade.py:675-676 | Python's `max` of a non-empty list: an element of the list and at least every element. |
| `Extrema.MinOf` | PyDSS/pyPostprocessor/PostprocessScripts/AutomatedVoltageUpgrade.py:678-679 | Python's `min` of a non-empty list: an element of the list and at most every element. |
| `BusNames.Lower` | PyDSS/pyPostprocessor/PostprocessScripts/AutomatedVoltageUpgrade.py:685-694 | The lower-cased bus name has the same length, maps every ASCII capital to its lower-case letter and keeps every other character, so it contains no capitals. |
| `BusNames.LowerIdempotent` | PyDSS/pyPostprocessor/PostprocessScripts/AutomatedVoltageUpgrade.py:685-694 | Lower-casing an already lower-cased name changes nothing. |
| `BusNames.LowerIgnoresCase` | PyDSS/pyPostprocessor/PostprocessScripts/AutomatedVoltageUpgrade.py:1571 | Two names that differ only in letter case lower-case to the same name, so the source-bus test `node.lower() == self.source.lower()` ignores case. |
| `Violations.DeviationPositive` | PyDSS/pyPostprocessor/PostprocessScripts/AutomatedVoltageUpgrade.py:668-694 | With `lower <= upper`, every counted violation adds a strictly positive deviation. |
| `Violations.SeverityIndices` | PyDSS/pyPostprocessor/PostprocessScripts/AutomatedVoltageUpgrade.py:701 | `severity_indices` is `[count, severity, count * severity]`. |
| `Violations.TallyBus` | PyDSS/pyPostprocessor/PostprocessScripts/AutomatedVoltageUpgrade.py:663-694 | One bus at one time point adds one violation, with its deviation, exactly when its max and min deviations differ. The lower-cased name joins the list only once. |
| `Violations.TallyTimePoint` | PyDSS/pyPostprocessor/PostprocessScripts/AutomatedVoltageUpgrade.py:663-694 | The bus loop of one time point adds that time point's count and severity. It lists exactly the lower-cased names of the violating buses, without duplicates. |
| `Violations.CheckVoltageViolations` | PyDSS/pyPostprocessor/PostprocessScripts/AutomatedVoltageUpgrade.py:636-701 | The count and severity are the totals over all time points and buses, and the indices are `[count, severity, count * severity]`. The violation list holds each violating lower-cased name once, and nothing else. |
| `Violations.RowSeverityMeasuresRowCount` | PyDSS/pyPostprocessor/PostprocessScripts/AutomatedVoltageUpgrade.py:681-691 | With `lower <= upper`, a time point's severity is non-negative, and it is zero exactly when the time point has no violation. |
| `Violations.TotalSeverityMeasuresTotalCount` | PyDSS/pyPostprocessor/PostprocessScripts/AutomatedVoltageUpgrade.py:645-701 | The same holds over all time points. |
| `Violations.ObjectiveZeroIffNoViolation` | PyDSS/pyPostprocessor/PostprocessScripts/AutomatedVoltageUpgrade.py:701 | The objective `severity_indices[2]` is non-negative, and it is zero exactly when no sample violates. |
| `SettingSelection.SeverityBound` | PyDSS/pyPostprocessor/PostprocessScripts/AutomatedVoltageUpgrade.py:908-911 | The initial `min_severity`, `buses^2 * time points * upper`, is non-negative for a non-negative limit and never above the largest attainable objective `(buses * time points)^2 * upper`. |
| `SettingSelection.FirstBelow` | PyDSS/pyPostprocessor/PostprocessScripts/AutomatedVoltageUpgrade.py:906-915 | The strict `<` loop selects nothing exactly when no value is below the bound. Otherwise it picks a minimal value below the bound, the first of the equal minima. |
| `SettingSelection.LastAtMost` | PyDSS/pyPostprocessor/PostprocessScripts/AutomatedVoltageUpgrade.py:1610-1616 | The `<=` loop selects nothing exactly when every value exceeds the bound. Otherwise it picks a minimal value not above the bound, the last of the equal minima. |
| `SettingSelection.SelectMinNode` | PyDSS/pyPostprocessor/PostprocessScripts/AutomatedVoltageUpgrade.py:1609-1621 | The cluster is skipped (`''`) exactly when every trialled node's objective exceeds the bound. Otherwise the chosen node is the last one with the minimal objective. |
| `SettingSelection.Split` | PyDSS/pyPostprocessor/PostprocessScripts/AutomatedVoltageUpgrade.py:920-921 | `split("_")` gives at least one part and no part contains `_`. There is more than one part exactly when the key contains `_`. |
| `SettingSelection.JoinSplit` | PyDSS/pyPostprocessor/PostprocessScripts/AutomatedVoltageUpgrade.py:920-921 | Joining the parts with `_` gives the key back. |
| `SettingSelection.ChooseAction` | PyDSS/pyPostprocessor/PostprocessScripts/AutomatedVoltageUpgrade.py:917-921 | `"original"` restores the initial settings. Any other key fails with `IndexError` exactly when it contains no `_`. Otherwise the first two `_`-parts of the key are applied. |
| `SettingSelection.ApplyBestSetting` | PyDSS/pyPostprocessor/PostprocessScripts/AutomatedVoltageUpgrade.py:906-921 | When no objective is below the bound, the apply step fails with `IndexError`. When some objective is below it, the step acts on the key of the first minimal entry below the bound, and that action can still fail only if that key has no `_`. |
| `SettingSelection.SeverityBoundBelowAttainable` | PyDSS/pyPostprocessor/PostprocessScripts/AutomatedVoltageUpgrade.py:908-911 | One bus at 0.5 pu over four time points has objective 8.8, which is above the bound 4.2. A sweep of such settings therefore fails with `IndexError`. |
| `SettingSelection.ObjectiveWithinIntendedBound` | PyDSS/pyPostprocessor/PostprocessScripts/AutomatedVoltageUpgrade.py:908-911 | When each deviation is at most the upper limit, the objective is at most `(buses * time points)^2 * upper`, the maximum the comment describes. |
| `SettingSelection.FirstMinimal` | PyDSS/pyPostprocessor/PostprocessScripts/AutomatedVoltageUpgrade.py:912-915 | The intended selection: nothing exactly for an empty table, otherwise the first minimal value. |
| `SettingSelection.FirstBelowAgreesWhenBoundIsHigh` | PyDSS/pyPostprocessor/PostprocessScripts/AutomatedVoltageUpgrade.py:906-915 | When every value is below the bound, the source's loop and the intended selection pick the same entry. |
| `SettingSelection.ApplyBestSettingCorrected` | PyDSS/pyPostprocessor/PostprocessScripts/AutomatedVoltageUpgrade.py:906-921 | Without the bound, a non-empty sweep whose keys are `"original"` or contain `_` always reaches an action. That action is for the first minimal key. |
| `DistanceMatrix.UpperRows` | PyDSS/pyPostprocessor/PostprocessScripts/AutomatedVoltageUpgrade.py:1399-1417 | There is one row per bus with violations. For distinct buses, row `i` has `n - i` entries: 0 for the bus itself, then the path lengths to the later buses in order. |
| `DistanceMatrix.ExpandToSquare` | PyDSS/pyPostprocessor/PostprocessScripts/AutomatedVoltageUpgrade.py:1419-1452 | Padding and mirroring give an `n x n` matrix. Its upper triangle is the given rows, its lower triangle mirrors them, and it is symmetric. |
| `DistanceMatrix.FullDistanceMatrix` | PyDSS/pyPostprocessor/PostprocessScripts/AutomatedVoltageUpgrade.py:1399-1452 | For distinct buses, the full matrix has a zero diagonal and holds the path length of every pair on both sides. |
| `UpstreamNodes.KeepCommon` | PyDSS/pyPostprocessor/PostprocessScripts/AutomatedVoltageUpgrade.py:1658-1665 | The kept nodes are exactly the candidates that lie on every path. Distinct candidates stay distinct, and a first candidate on every path stays first. |
| `UpstreamNodes.KeepCommonKeepsOrder` | PyDSS/pyPostprocessor/PostprocessScripts/AutomatedVoltageUpgrade.py:1658-1665 | The kept nodes are in the order of the walked path. |
| `UpstreamNodes.IdentifyRegNodes` | PyDSS/pyPostprocessor/PostprocessScripts/AutomatedVoltageUpgrade.py:1642-1668 | For every cluster, the common upstream nodes are exactly the nodes that lie on the source-to-bus path of every member. They are listed in the order of the last member's path, as `KeepCommon` filters it. |
| `UpstreamNodes.SourceIsFirstCommonNode` | PyDSS/pyPostprocessor/PostprocessScripts/AutomatedVoltageUpgrade.py:1642-1668 | When every path starts at the source bus, the source is the first common node of every cluster. |
| `UpstreamNodes.TrialNodes` | PyDSS/pyPostprocessor/PostprocessScripts/AutomatedVoltageUpgrade.py:1564-1597 | The trialled nodes are exactly the common nodes that are not the source bus (compared case-insensitively) and have no transformer yet. Each appears at most once when the common nodes do. |
| `UpstreamNodes.TrialNodesKeepsOrder` | PyDSS/pyPostprocessor/PostprocessScripts/AutomatedVoltageUpgrade.py:1564-1597 | The nodes are trialled in path order: of any two trialled nodes, the one trialled first comes first among the common nodes. This order decides which node the `<=` selection keeps on a tie. |
| `UpstreamNodes.SourceNeverTrialled` | PyDSS/pyPostprocessor/PostprocessScripts/AutomatedVoltageUpgrade.py:1571-1574 | The source bus is never trialled for a new regulator. |

## Left out

- The circuit solver: solving, convergence checks and `quit()`, the `BatchEdit`/`LoadMult` commands run per time point, and every `dss.*` query. Their results are parameters.
- The graph library (`networkx`): `shortest_path` and path lengths are function parameters, and the graph-building loops of `generate_edges` are left out. Only their unit table is modelled. `round(path_length, 3)` belongs to the `pathLength` parameter.
- Clustering (`AgglomerativeClustering`), plotting, `print`, JSON and file writing (`write_to_json`, `write_upgrades_to_file`), the GUI (`dssGUI.py`) and the single-run driver (`dssSingleRun.py`).
- The device sweeps and the commands that apply a chosen setting (`cap_settings_sweep`, `reg_controls_sweep`, `LTC_controls_sweep`, `add_new_xfmr`, `add_new_regctrl`, `correct_cap_bank_settings`, …). They are floating-point sweeps over solver runs. Only their selection and key-splitting logic is modelled.
- TOML decoding and file paths: `ExportReader` starts from a decoded, ordered document, and the `DEFAULT_*` paths and `load_data` calls of `common.py` are left out.
- Regular expressions: `matches(pattern, name)` stands for Python's unanchored `re.search`.
- `MotorStall.Init`: `ratedKvar` is a setting. The `sqrt(S**2 - kw**2)` of the constructor is left out.
- `MotorStall.Update`: requires a voltage reading at priority 0. The `ValueError` that `max` raises on an empty reading is modelled by `MotorStall.TryUpdate`, and `Run` makes only calls that carry a reading. The `kVBase` read at line 55 is never used and is left out.
- `Violations.CheckVoltageViolations`: states which names are listed and that none repeats, not the order of first violation. It leaves out `nodal_violations_dict`, `max_V_viol`, `min_V_viol`, `busvmax` and the positions dictionary, which only feed prints and plots.
- `Violations.IsViolation`: a bus with no phase values is not a violation. The source would fail on `max([])`. Well-shaped voltage tables always have phases.
- `BusNames.Lower`: folds ASCII letters only; Python's `str.lower` is Unicode-aware.
- `UpstreamNodes.IdentifyRegNodes`: requires every cluster to have a member. The clustering labels give every cluster one (lines 1470-1474). An empty cluster would reuse the previous cluster's path in the source.
- `ExportList.ParseLimits`: does not refuse `min > max`. No test refuses `min > max`, so the model accepts it.
- `DistanceMatrix.ExpandToSquare`: indexes rows by position. The source finds the same rows through the `temp_nodes_list.remove(key)` bookkeeping, which is equivalent for distinct bus names.

As written in the source, and modelled that way:

- `minv_dev` is `upper - min`, not `lower - min` (line 680).
- `SOCKET_CONTROLLER_FILENAME` and `XMFR_CONTROLLER_FILENAME` are derived from the other controller's member (lines 49-50).

## Findings

| source | as written | input that shows it | evidently intended | confidence | as-written member | corrected member |
|---|---|---|---|---|---|---|
| PyDSS/pyPostprocessor/PostprocessScripts/AutomatedVoltageUpgrade.py:908-911 | The initial `min_severity` is `buses^2 * time points * upper`. The comment calls it the maximum possible severity, but the objective is `count * severity`, which can reach `(buses * time points)^2 * upper`. If every setting's objective is at or above this bound, `best_setting` stays `''` and `''.split("_")[1]` raises `IndexError`. The same bound is used at lines 335-336, 993-994, 1347-1348 and 1610-1611. | One bus at 0.5 pu at each of the four test time points, with band [0.95, 1.05]. The count is 4, the severity 2.2 and the objective 8.8, but the bound is 4.2. | A bound at least the largest attainable objective, `(buses * time points)^2 * upper`, or no bound: every non-empty sweep selects its minimal setting. | medium, not executed | `SettingSelection.SeverityBoundBelowAttainable` | `SettingSelection.ApplyBestSettingCorrected` |

=== FILE: bus_names.dfy ===
/** Bus names as the voltage-upgrade post-processor compares them: the
    solver reports them in mixed case, and the program lower-cases them
    before storing or matching. */
module BusNames {

  /** The lower-case counterpart of an ASCII capital; other characters are
      their own. */
  function LowerChar(c: char): char {
    if 'A' <= c <= 'Z' then (c as int + 32) as char else c
  }

  /** ASCII lower-casing of a bus name, character by character. */
  function Lower(name: string): (r: string)
    ensures |r| == |name|
    ensures forall k :: 0 <= k < |name| ==> r[k] == LowerChar(name[k])
    ensures forall k :: 0 <= k < |r| ==> !('A' <= r[k] <= 'Z')
  {
    if |name| == 0 then ""
    else
      var c := name[0];
      [LowerChar(c)] + Lower(name[1..])
  }

  /** Lower-casing twice is lower-casing once, so an already lower-cased name
      compares equal to itself lower-cased again. */
  lemma LowerIdempotent(name: string)
    ensures Lower(Lower(name)) == Lower(name)
  {
  }

  /** Names that differ only in the case of their letters compare equal. */
  lemma LowerIgnoresCase(a: string, b: string)
    requires |a| == |b|
    requires forall k :: 0 <= k < |a| ==> LowerChar(a[k]) == LowerChar(b[k])
    ensures Lower(a) == Lower(b)
  {
  }
}

=== FILE: common.dfy ===
/** The string-valued enumerations of PyDSS's `common` module and the file
    names derived from them.  Each enumeration is a closed datatype with an
    explicit value table; `EnumFromValue` is the lookup Python's
    `Enum(value)` performs, the inverse used to state that the tables are
    injective. */
module Common {
  import opened Outcomes

  /** Extension appended to every configuration file name. */
  const ConfigExt: string := ".toml"

  datatype VisualizationType =
    | FrequencyPlot | HistogramPlot | VoltDistPlot | TimeSeriesPlot
    | TopologyPlot | XYPlot | ThreeDimPlot | TablePlot
  {
    function Value(): string {
      match this
      case FrequencyPlot => "FrequencySweep"
      case HistogramPlot => "Histogram"
      case VoltDistPlot => "VoltageDistance"
      case TimeSeriesPlot => "TimeSeries"
      case TopologyPlot => "Topology"
      case XYPlot => "XY"
      case ThreeDimPlot => "ThreeDim"
      case TablePlot => "Table"
    }
  }

  datatype ControllerType =
    | PvController | SocketController | StorageController | XmfrController
  {
    function Value(): string {
      match this
      case PvController => "PvController"
      case SocketController => "SocketController"
      case StorageController => "StorageController"
      case XmfrController => "xmfrController"
    }
  }

  datatype ExportMode = ByClass | ByElement {
    function Value(): string {
      match this
      case ByClass => "ExportMode-byClass"
      case ByElement => "ExportMode-byElement"
    }
  }

  /** Any member of the three enumerations, as `filename_from_enum` accepts. */
  datatype ConfigEnum =
    | Visualization(vis: VisualizationType)
    | Controller(ctrl: ControllerType)
    | Export(mode: ExportMode)
  {
    function Value(): string {
      match this
      case Visualization(v) => v.Value()
      case Controller(c) => c.Value()
      case Export(m) => m.Value()
    }
  }

  /** Controller members in declaration order, the order Python iterates an
      `Enum` in. */
  const AllControllerTypes: seq<ControllerType> :=
    [PvController, SocketController, StorageController, XmfrController]

  /** The lookup `ControllerType(s)`, `VisualizationType(s)` and
      `ExportMode(s)` perform, over all three enumerations at once: the member
      whose value is `s`, if any. */
  function EnumFromValue(s: string): (r: Option<ConfigEnum>)
    ensures r.Some? ==> r.value.Value() == s
  {
    if s == "FrequencySweep" then Some(Visualization(FrequencyPlot))
    else if s == "Histogram" then Some(Visualization(HistogramPlot))
    else if s == "VoltageDistance" then Some(Visualization(VoltDistPlot))
    else if s == "TimeSeries" then Some(Visualization(TimeSeriesPlot))
    else if s == "Topology" then Some(Visualization(TopologyPlot))
    else if s == "XY" then Some(Visualization(XYPlot))
    else if s == "ThreeDim" then Some(Visualization(ThreeDimPlot))
    else if s == "Table" then Some(Visualization(TablePlot))
    else if s == "PvController" then Some(Controller(PvController))
    else if s == "SocketController" then Some(Controller(SocketController))
    else if s == "StorageController" then Some(Controller(StorageController))
    else if s == "xmfrController" then Some(Controller(XmfrController))
    else if s == "ExportMode-byClass" then Some(Export(ByClass))
    else if s == "ExportMode-byElement" then Some(Export(ByElement))
    else None
  }

  /** Every member is found again from its value: the value tables of the
      three enumerations are injective, within and across enumerations. */
  lemma ValueRoundTrip(e: ConfigEnum)
    ensures EnumFromValue(e.Value()) == Some(e)
  {
  }

  /** `filename_from_enum`: the member's value followed by the configuration
      extension. */
  function FilenameFromEnum(e: ConfigEnum): (r: string)
    ensures |r| == |e.Value()| + |ConfigExt|
    ensures r[..|e.Value()|] == e.Value()
    ensures r[|e.Value()|..] == ConfigExt
  {
    e.Value() + ConfigExt
  }

  /** The inverse of `FilenameFromEnum`: strips the extension and looks the
      rest up; a name without the extension, or with an unknown stem, gives
      `None`. */
  function EnumFromFilename(name: string): (r: Option<ConfigEnum>)
    ensures r.Some? ==> FilenameFromEnum(r.value) == name
  {
    if |name| >= |ConfigExt| && name[|name| - |ConfigExt|..] == ConfigExt then
      var stem := name[..|name| - |ConfigExt|];
      var e := EnumFromValue(stem);
      assert e.Some? ==> FilenameFromEnum(e.value) == stem + ConfigExt;
      assert name == stem + ConfigExt;
      e
    else
      None
  }

  lemma FilenameRoundTrip(e: ConfigEnum)
    ensures EnumFromFilename(FilenameFromEnum(e)) == Some(e)
  {
    var name := FilenameFromEnum(e);
    assert name[..|name| - |ConfigExt|] == e.Value();
    ValueRoundTrip(e);
  }

  /** Two members share a file name only if they are the same member. */
  lemma FilenameInjective(a: ConfigEnum, b: ConfigEnum)
    ensures FilenameFromEnum(a) == FilenameFromEnum(b) <==> a == b
  {
    if FilenameFromEnum(a) == FilenameFromEnum(b) {
      FilenameRoundTrip(a);
      FilenameRoundTrip(b);
    }
  }

  /** `CONTROLLER_TYPES`: the controller values in declaration order. */
  const ControllerTypes: seq<string> :=
    seq(|AllControllerTypes|, i requires 0 <= i < |AllControllerTypes| => AllControllerTypes[i].Value())

  const TimeSeriesPlotFilename: string := FilenameFromEnum(Visualization(TimeSeriesPlot))
  const PvControllerFilename: string := FilenameFromEnum(Controller(PvController))
  const StorageControllerFilename: string := FilenameFromEnum(Controller(StorageController))
  /** As written in the source: the socket-controller name is derived from the
      transformer controller and vice versa. */
  const SocketControllerFilename: string := FilenameFromEnum(Controller(XmfrController))
  const XmfrControllerFilename: string := FilenameFromEnum(Controller(SocketController))
  const ExportByClassFilename: string := FilenameFromEnum(Export(ByClass))
  const ExportByElementFilename: string := FilenameFromEnum(Export(ByElement))

  /** The derived file names, spelled out, including the swapped pair. */
  lemma DerivedFilenames()
    ensures TimeSeriesPlotFilename == "TimeSeries.toml"
    ensures PvControllerFilename == "PvController.toml"
    ensures StorageControllerFilename == "StorageController.toml"
    ensures SocketControllerFilename == "xmfrController.toml"
    ensures XmfrControllerFilename == "SocketController.toml"
    ensures ExportByClassFilename == "ExportMode-byClass.toml"
    ensures ExportByElementFilename == "ExportMode-byElement.toml"
  {
  }

  /** `CONTROLLER_TYPES` lists the four controller values, once each, in
      declaration order. */
  lemma ControllerTypesInOrder()
    ensures ControllerTypes == ["PvController", "SocketController", "StorageController", "xmfrController"]
    ensures NoDuplicates(ControllerTypes)
    ensures forall c: ControllerType :: c.Value() in ControllerTypes
  {
  }
}

=== FILE: distance_matrix.dfy ===
/** The distance matrix between the buses with violations, as the
    voltage-upgrade post-processor builds it for clustering:
    `get_shortest_path` fills only the upper triangle (one row per bus,
    starting at its own diagonal), and `get_full_distance_dict` pads every
    row on the left with zeros and mirrors the upper triangle into the lower
    one.  The length of the shortest path between two buses (the sum of its
    edge lengths, rounded to three decimals) is the parameter `pathLength`. */
module DistanceMatrix {
  import opened Outcomes

  /** The entries the source appends for `bus1` while walking `candidates`:
      0 for the bus itself, nothing for a bus whose row is already done
      (`precal_paths`), the path length otherwise. */
  function RowEntries(bus1: string, candidates: seq<string>, precal: seq<string>,
                      pathLength: (string, string) -> real): seq<real>
  {
    if |candidates| == 0 then []
    else
      var prev := RowEntries(bus1, candidates[..|candidates| - 1], precal, pathLength);
      var busN := candidates[|candidates| - 1];
      if busN == bus1 then prev + [0.0]
      else if busN in precal then prev
      else prev + [pathLength(bus1, busN)]
  }

  /** `get_shortest_path`: the upper-triangular rows, in bus order.  For
      distinct buses, row `i` has one entry per bus from `i` on: 0 on the
      diagonal, then the path lengths to the later buses. */
  function UpperRows(buses: seq<string>, pathLength: (string, string) -> real): (r: seq<seq<real>>)
    ensures |r| == |buses|
    ensures forall i :: 0 <= i < |buses| ==> r[i] == RowEntries(buses[i], buses, buses[..i], pathLength)
    ensures NoDuplicates(buses) ==> forall i :: 0 <= i < |buses| ==>
      && |r[i]| == |buses| - i
      && r[i][0] == 0.0
      && (forall j :: 0 < j < |r[i]| ==> r[i][j] == pathLength(buses[i], buses[i + j]))
  {
    var r := seq(|buses|, i requires 0 <= i < |buses| => RowEntries(buses[i], buses, buses[..i], pathLength));
    assert NoDuplicates(buses) ==> forall i :: 0 <= i < |buses| ==>
      && |r[i]| == |buses| - i
      && r[i][0] == 0.0
      && (forall j :: 0 < j < |r[i]| ==> r[i][j] == pathLength(buses[i], buses[i + j])) by {
      if NoDuplicates(buses) {
        forall i | 0 <= i < |buses|
          ensures |r[i]| == |buses| - i
          ensures r[i][0] == 0.0
          ensures forall j :: 0 < j < |r[i]| ==> r[i][j] == pathLength(buses[i], buses[i + j])
        {
          RowEntriesPrefix(buses, pathLength, i, |buses|);
          assert buses[..|buses|] == buses;
        }
      }
    }
    r
  }

  /** Over the first `m` buses, the row of bus `i` holds 0 and then the path
      lengths to the buses after it, in order. */
  lemma {:induction false} RowEntriesPrefix(buses: seq<string>, pathLength: (string, string) -> real, i: nat, m: nat)
    requires NoDuplicates(buses)
    requires i < |buses| && m <= |buses|
    ensures var row := RowEntries(buses[i], buses[..m], buses[..i], pathLength);
      && |row| == (if m <= i then 0 else m - i)
      && (forall j :: 0 < j < |row| ==> row[j] == pathLength(buses[i], buses[i + j]))
      && (|row| > 0 ==> row[0] == 0.0)
  {
    if m > 0 {
      RowEntriesPrefix(buses, pathLength, i, m - 1);
      assert buses[..m][..m - 1] == buses[..m - 1];
      var busN := buses[..m][m - 1];
      assert busN == buses[m - 1];
      if m - 1 < i {
        assert busN in buses[..i];
        assert busN != buses[i];
      } else if m - 1 > i {
        assert busN != buses[i];
        assert busN !in buses[..i] by {
          forall k | 0 <= k < i ensures buses[..i][k] != busN {
            assert buses[..i][k] == buses[k];
          }
        }
      }
    }
  }

  /** A row of `k` zeros. */
  function Zeros(k: nat): (r: seq<real>)
    ensures |r| == k
    ensures forall j :: 0 <= j < k ==> r[j] == 0.0
  {
    seq(k, _ => 0.0)
  }

  /** Upper-triangular rows: row `i` covers columns `i` to the end. */
  predicate UpperShaped(ut: seq<seq<real>>) {
    forall i :: 0 <= i < |ut| ==> |ut[i]| == |ut| - i
  }

  predicate IsSquare(sq: seq<seq<real>>, n: nat) {
    |sq| == n && forall a :: 0 <= a < n ==> |sq[a]| == n
  }

  /** The first half of `get_full_distance_dict`: each row padded on the left
      with zeros up to the longest row's length. */
  method PadRows(ut: seq<seq<real>>) returns (sq: seq<seq<real>>)
    requires UpperShaped(ut)
    ensures IsSquare(sq, |ut|)
    ensures forall a, b :: 0 <= a <= b < |ut| ==> sq[a][b] == ut[a][b - a]
  {
    var n := |ut|;
    sq := [];
    var i := 0;
    while i < n
      invariant 0 <= i <= n && |sq| == i
      invariant forall a :: 0 <= a < i ==> |sq[a]| == n
      invariant forall a, b :: 0 <= a < i && a <= b < n ==> sq[a][b] == ut[a][b - a]
    {
      var row := Zeros(n - |ut[i]|) + ut[i];
      assert forall b :: i <= b < n ==> row[b] == ut[i][b - i];
      sq := sq + [row];
      i := i + 1;
    }
  }

  /** One pass of the mirroring loop: row `k`'s entries go down column `k`. */
  method MirrorColumn(ut: seq<seq<real>>, sq0: seq<seq<real>>, k: nat) returns (sq: seq<seq<real>>)
    requires UpperShaped(ut) && k < |ut|
    requires IsSquare(sq0, |ut|)
    requires forall a, b :: 0 <= a <= b < |ut| ==> sq0[a][b] == ut[a][b - a]
    requires forall a, c :: 0 <= c < k && c <= a < |ut| ==> sq0[a][c] == ut[c][a - c]
    ensures IsSquare(sq, |ut|)
    ensures forall a, b :: 0 <= a <= b < |ut| ==> sq[a][b] == ut[a][b - a]
    ensures forall a, c :: 0 <= c <= k && c <= a < |ut| ==> sq[a][c] == ut[c][a - c]
  {
    var n := |ut|;
    sq := sq0;
    var j := 0;
    while j < |ut[k]|
      invariant 0 <= j <= n - k
      invariant IsSquare(sq, n)
      invariant forall a, b :: 0 <= a <= b < n ==> sq[a][b] == ut[a][b - a]
      invariant forall a, c :: 0 <= c < k && c <= a < n ==> sq[a][c] == ut[c][a - c]
      invariant forall a :: k <= a < k + j ==> sq[a][k] == ut[k][a - k]
    {
      sq := sq[k + j := sq[k + j][k := ut[k][j]]];
      j := j + 1;
    }
  }

  /** `get_full_distance_dict`: the square matrix whose upper triangle is the
      given rows and whose lower triangle mirrors it. */
  method ExpandToSquare(ut: seq<seq<real>>) returns (sq: seq<seq<real>>)
    requires UpperShaped(ut)
    ensures IsSquare(sq, |ut|)
    ensures forall a, b :: 0 <= a <= b < |ut| ==> sq[a][b] == ut[a][b - a]
    ensures forall a, c :: 0 <= c <= a < |ut| ==> sq[a][c] == ut[c][a - c]
    ensures forall a, b :: 0 <= a < |ut| && 0 <= b < |ut| ==> sq[a][b] == sq[b][a]
  {
    sq := PadRows(ut);
    var k := 0;
    while k < |ut|
      invariant 0 <= k <= |ut|
      invariant IsSquare(sq, |ut|)
      invariant forall a, b :: 0 <= a <= b < |ut| ==> sq[a][b] == ut[a][b - a]
      invariant forall a, c :: 0 <= c < k && c <= a < |ut| ==> sq[a][c] == ut[c][a - c]
    {
      sq := MirrorColumn(ut, sq, k);
      k := k + 1;
    }
  }

  /** Both steps together: for distinct buses, the full matrix has a zero
      diagonal and holds the path length between every pair, symmetrically. */
  method FullDistanceMatrix(buses: seq<string>, pathLength: (string, string) -> real)
    returns (sq: seq<seq<real>>)
    requires NoDuplicates(buses)
    ensures IsSquare(sq, |buses|)
    ensures forall a :: 0 <= a < |buses| ==> sq[a][a] == 0.0
    ensures forall a, b :: 0 <= a < b < |buses| ==>
      sq[a][b] == pathLength(buses[a], buses[b]) && sq[b][a] == pathLength(buses[a], buses[b])
  {
    var ut := UpperRows(buses, pathLength);
    sq := ExpandToSquare(ut);
    forall a, b | 0 <= a < b < |buses|
      ensures sq[a][b] == pathLength(buses[a], buses[b])
    {
      assert sq[a][b] == ut[a][b - a];
      assert buses[a + (b - a)] == buses[b];
    }
  }
}

=== FILE: export_list.dfy ===
/** The export-list configuration: which element properties are recorded, for
    which element names, and for which values.  `ExportListProperty` is one
    validated configuration row; the reader that holds them is the module
    `ExportReader`.  Regular-expression search is a parameter
    `matches(pattern, name)` (true when `pattern` is found somewhere in
    `name`), since no regular-expression engine is modelled. */
module ExportList {
  import opened Outcomes

  /** The temporal reduction applied to a property's samples. */
  datatype StoreValuesType = All | First | Last | Max | Min | ChangesOnly

  /** Whether values outside or inside the limits band are kept. */
  datatype LimitsFilter = Outside | Inside

  datatype Limits = Limits(min: real, max: real)

  /** A configuration value as the document decoder hands it over. */
  datatype ConfigValue = Str(s: string) | Num(x: real) | List(items: seq<ConfigValue>)

  /** The keys one property's configuration may carry; `None` is an absent key. */
  datatype Fragment = Fragment(
    storeValuesType: Option<StoreValuesType>,
    limits: Option<ConfigValue>,
    limitsFilter: Option<LimitsFilter>,
    names: Option<ConfigValue>,
    nameRegexes: Option<ConfigValue>)

  /** A fragment with no keys at all. */
  const EmptyFragment := Fragment(None, None, None, None, None)

  /** "No filter configured" is an explicit case of each filter. */
  datatype NameFilter = Unfiltered | ByNames(names: set<string>) | ByRegexes(patterns: seq<string>)
  datatype ValueFilter = Unbounded | Band(limits: Limits, filter: LimitsFilter)

  datatype ExportListProperty = ExportListProperty(
    elementClass: string,
    name: string,
    storeValuesType: StoreValuesType,
    nameFilter: NameFilter,
    valueFilter: ValueFilter)
  {
    /** The configured limits, as the `limits` attribute exposes them. */
    function Limits(): Option<Limits> {
      if valueFilter.Band? then Some(valueFilter.limits) else None
    }

    predicate ShouldStoreName(name: string, matches: (string, string) -> bool) {
      match nameFilter
      case Unfiltered => true
      case ByNames(names) => name in names
      case ByRegexes(patterns) => AnyMatches(patterns, name, matches)
    }

    predicate ShouldStoreValue(value: real) {
      match valueFilter
      case Unbounded => true
      case Band(limits, Outside) => value < limits.min || value > limits.max
      case Band(limits, Inside) => limits.min <= value <= limits.max
    }
  }

  /** The pattern loop: true as soon as one pattern is found in `name`. */
  predicate AnyMatches(patterns: seq<string>, name: string, matches: (string, string) -> bool) {
    if |patterns| == 0 then false
    else if matches(patterns[0], name) then true
    else AnyMatches(patterns[1..], name, matches)
  }

  /** The pattern loop accepts a name exactly when some pattern matches it. */
  lemma {:induction false} AnyMatchesIffSome(patterns: seq<string>, name: string, matches: (string, string) -> bool)
    ensures AnyMatches(patterns, name, matches) <==> exists k :: 0 <= k < |patterns| && matches(patterns[k], name)
  {
    if |patterns| > 0 {
      AnyMatchesIffSome(patterns[1..], name, matches);
      if exists k :: 0 <= k < |patterns| && matches(patterns[k], name) {
        var k :| 0 <= k < |patterns| && matches(patterns[k], name);
        if k > 0 {
          assert matches(patterns[1..][k - 1], name);
        }
      }
      if exists k :: 0 <= k < |patterns| - 1 && matches(patterns[1..][k], name) {
        var k :| 0 <= k < |patterns| - 1 && matches(patterns[1..][k], name);
        assert matches(patterns[k + 1], name);
      }
    }
  }

  /** The strings of a list, or `None` when some item is not a string. */
  function StringItems(items: seq<ConfigValue>): (r: Option<seq<string>>)
    ensures r.Some? <==> forall i :: 0 <= i < |items| ==> items[i].Str?
    ensures r.Some? ==> |r.value| == |items| && forall i :: 0 <= i < |items| ==> r.value[i] == items[i].s
  {
    if |items| == 0 then Some([])
    else match StringItems(items[1..])
      case None => None
      case Some(rest) => if items[0].Str? then Some([items[0].s] + rest) else None
  }

  /** A `names` or `name_regexes` value: it must be a list of strings.  A bare
      string is refused rather than iterated character by character. */
  function ParseNameList(v: ConfigValue): (r: Result<seq<string>>)
    ensures r.Ok? <==> v.List? && forall i :: 0 <= i < |v.items| ==> v.items[i].Str?
    ensures r.Ok? ==> |r.value| == |v.items| && forall i :: 0 <= i < |v.items| ==> r.value[i] == v.items[i].s
    ensures r.Err? ==> r.error.InvalidConfiguration?
  {
    if !v.List? then Err(InvalidConfiguration("names must be a list"))
    else match StringItems(v.items)
      case None => Err(InvalidConfiguration("names must be strings"))
      case Some(strs) => Ok(strs)
  }

  /** A `limits` value: it must be a list of exactly two numbers. */
  function ParseLimits(v: ConfigValue): (r: Result<Limits>)
    ensures r.Ok? <==> v.List? && |v.items| == 2 && v.items[0].Num? && v.items[1].Num?
    ensures r.Ok? ==> r.value.min == v.items[0].x && r.value.max == v.items[1].x
    ensures r.Err? ==> r.error.InvalidConfiguration?
  {
    if v.List? && |v.items| == 2 && v.items[0].Num? && v.items[1].Num? then
      Ok(Limits(v.items[0].x, v.items[1].x))
    else
      Err(InvalidConfiguration("invalid limits format"))
  }

  function ParseNameFilter(f: Fragment): Result<NameFilter> {
    if f.names.Some? && f.nameRegexes.Some? then
      Err(InvalidConfiguration("names and name_regexes cannot both be set"))
    else if f.names.Some? then
      var names :- ParseNameList(f.names.value);
      Ok(ByNames(set n | n in names))
    else if f.nameRegexes.Some? then
      var patterns :- ParseNameList(f.nameRegexes.value);
      Ok(ByRegexes(patterns))
    else
      Ok(Unfiltered)
  }

  function ParseValueFilter(f: Fragment): Result<ValueFilter> {
    if f.limits.None? then Ok(Unbounded)
    else
      var limits :- ParseLimits(f.limits.value);
      if f.limitsFilter.None? then Err(InvalidConfiguration("limits_filter is required with limits"))
      else Ok(Band(limits, f.limitsFilter.value))
  }

  /** `ExportListProperty(element_class, property, data)`: validates the
      fragment eagerly; every refusal is an invalid-configuration error. */
  function NewProperty(elementClass: string, name: string, f: Fragment): (r: Result<ExportListProperty>)
    ensures r.Err? ==> r.error.InvalidConfiguration?
    ensures f.names.Some? && f.nameRegexes.Some? ==> r.Err?
    ensures f.names.Some? && !f.names.value.List? ==> r.Err?
    ensures f.limits.Some? && ParseLimits(f.limits.value).Err? ==> r.Err?
    ensures f.limits.Some? && f.limitsFilter.None? ==> r.Err?
    ensures r.Ok? ==> r.value.elementClass == elementClass && r.value.name == name
    ensures r.Ok? ==> r.value.storeValuesType == (if f.storeValuesType.Some? then f.storeValuesType.value else All)
    ensures r.Ok? <==> ParseNameFilter(f).Ok? && ParseValueFilter(f).Ok?
  {
    var nameFilter :- ParseNameFilter(f);
    var valueFilter :- ParseValueFilter(f);
    var storeType := if f.storeValuesType.Some? then f.storeValuesType.value else All;
    Ok(ExportListProperty(elementClass, name, storeType, nameFilter, valueFilter))
  }

  /** A `names` list keeps exactly the listed names. */
  lemma NamesFilterIsMembership(c: string, p: string, names: seq<string>, f: Fragment, matches: (string, string) -> bool)
    requires f.names == Some(List(seq(|names|, i requires 0 <= i < |names| => Str(names[i]))))
    requires f.nameRegexes.None?
    requires NewProperty(c, p, f).Ok?
    ensures forall n :: NewProperty(c, p, f).value.ShouldStoreName(n, matches) <==> n in names
  {
    var v := f.names.value;
    assert forall i :: 0 <= i < |v.items| ==> v.items[i] == Str(names[i]);
    var parsed := ParseNameList(v).value;
    assert parsed == names;
  }

  /** A bare string as `names` is refused. */
  lemma BareStringNamesRefused(c: string, p: string, f: Fragment)
    requires f.names.Some? && f.names.value.Str?
    ensures NewProperty(c, p, f).Err?
    ensures NewProperty(c, p, f).error.InvalidConfiguration?
  {
  }

  /** With `name_regexes`, a name is kept exactly when one of the configured
      patterns matches it. */
  lemma NameRegexesMatchAny(c: string, p: string, f: Fragment, matches: (string, string) -> bool, n: string)
    requires f.names.None? && f.nameRegexes.Some?
    requires NewProperty(c, p, f).Ok?
    ensures NewProperty(c, p, f).value.nameFilter.ByRegexes?
    ensures var configured := f.nameRegexes.value;
      && configured.List?
      && (forall k :: 0 <= k < |configured.items| ==> configured.items[k].Str?)
      && NewProperty(c, p, f).value.nameFilter.patterns == seq(|configured.items|, k requires 0 <= k < |configured.items| => configured.items[k].s)
      && (NewProperty(c, p, f).value.ShouldStoreName(n, matches) <==>
        exists k :: 0 <= k < |configured.items| && matches(configured.items[k].s, n))
  {
    var configured := f.nameRegexes.value;
    var patterns := NewProperty(c, p, f).value.nameFilter.patterns;
    assert patterns == ParseNameList(configured).value;
    AnyMatchesIffSome(patterns, n, matches);
    if exists k :: 0 <= k < |configured.items| && matches(configured.items[k].s, n) {
      var k :| 0 <= k < |configured.items| && matches(configured.items[k].s, n);
      assert matches(patterns[k], n);
    }
  }

  /** `names` and `name_regexes` together are refused, whatever their values. */
  lemma NamesAndRegexesRefused(c: string, p: string, f: Fragment)
    requires f.names.Some? && f.nameRegexes.Some?
    ensures NewProperty(c, p, f) == Err(InvalidConfiguration("names and name_regexes cannot both be set"))
  {
  }

  /** Valid limits `[a, b]` are exposed as `min == a`, `max == b`; OUTSIDE keeps
      values outside the closed band and INSIDE keeps the values in it. */
  lemma LimitsBand(c: string, p: string, a: real, b: real, filter: LimitsFilter, f: Fragment, v: real)
    requires f.limits == Some(List([Num(a), Num(b)])) && f.limitsFilter == Some(filter)
    requires NewProperty(c, p, f).Ok?
    ensures NewProperty(c, p, f).value.Limits() == Some(Limits(a, b))
    ensures filter == Outside ==> (NewProperty(c, p, f).value.ShouldStoreValue(v) <==> v < a || v > b)
    ensures filter == Inside ==> (NewProperty(c, p, f).value.ShouldStoreValue(v) <==> a <= v <= b)
  {
  }

  /** For the same limits, OUTSIDE and INSIDE split every value between them. */
  lemma OutsideComplementsInside(limits: Limits, c: string, p: string, st: StoreValuesType, nf: NameFilter, v: real)
    ensures ExportListProperty(c, p, st, nf, Band(limits, Outside)).ShouldStoreValue(v)
        != ExportListProperty(c, p, st, nf, Band(limits, Inside)).ShouldStoreValue(v)
  {
  }

  /** Limits that are not a two-number list -- one element, a scalar -- are
      refused. */
  lemma BadLimitsRefused(c: string, p: string, f: Fragment)
    requires f.limits.Some?
    requires !(f.limits.value.List? && |f.limits.value.items| == 2)
    ensures NewProperty(c, p, f).Err?
    ensures NewProperty(c, p, f).error.InvalidConfiguration?
  {
  }

  /** A fragment with no filters keeps every name and value, with store type
      ALL. */
  lemma UnfilteredStoresEverything(c: string, p: string, matches: (string, string) -> bool, n: string, v: real)
    ensures NewProperty(c, p, EmptyFragment).Ok?
    ensures NewProperty(c, p, EmptyFragment).value.storeValuesType == All
    ensures NewProperty(c, p, EmptyFragment).value.ShouldStoreName(n, matches)
    ensures NewProperty(c, p, EmptyFragment).value.ShouldStoreValue(v)
  {
  }

  /** Without `limits`, every value is stored, whatever the name filter. */
  lemma NoLimitsStoresEveryValue(c: string, p: string, f: Fragment, v: real)
    requires f.limits.None?
    requires NewProperty(c, p, f).Ok?
    ensures NewProperty(c, p, f).value.valueFilter == Unbounded
    ensures NewProperty(c, p, f).value.ShouldStoreValue(v)
  {
  }

  /** Without `names` and `name_regexes`, every name is stored, whatever the
      value filter. */
  lemma NoNameFilterStoresEveryName(c: string, p: string, f: Fragment, matches: (string, string) -> bool, n: string)
    requires f.names.None? && f.nameRegexes.None?
    requires NewProperty(c, p, f).Ok?
    ensures NewProperty(c, p, f).value.nameFilter == Unfiltered
    ensures NewProperty(c, p, f).value.ShouldStoreName(n, matches)
  {
  }
}

=== FILE: export_reader.dfy ===
/** `ExportListReader`: the ordered query surface over an already-parsed
    export-list document.  Both document schemas are normalised through the
    same class builder; the legacy schema additionally contributes the
    `publicationList` of "Class Property" strings. */
module ExportReader {
  import opened Outcomes
  import opened ExportList

  /** One element class of the document, its properties in declared order. */
  datatype ClassEntry = ClassEntry(elementClass: string, properties: seq<(string, Fragment)>)

  /** The two document schemas, already decoded into ordered key lists. */
  datatype Document =
    | Current(classes: seq<ClassEntry>)
    | Legacy(classes: seq<ClassEntry>, publications: seq<(string, string)>)

  /** A decoded mapping never repeats a key: class names are distinct, and so
      are the property names under each class. */
  predicate WellFormed(doc: Document) {
    && (forall i, j :: 0 <= i < j < |doc.classes| ==> doc.classes[i].elementClass != doc.classes[j].elementClass)
    && (forall i :: 0 <= i < |doc.classes| ==> DistinctKeys(doc.classes[i].properties))
  }

  predicate DistinctKeys(entries: seq<(string, Fragment)>) {
    forall i, j :: 0 <= i < j < |entries| ==> entries[i].0 != entries[j].0
  }

  datatype ClassProperties = ClassProperties(elementClass: string, properties: seq<ExportListProperty>)

  datatype Reader = Reader(classes: seq<ClassProperties>, publicationList: seq<string>)

  /** Builds the properties of one class in order; the first invalid fragment
      aborts the build. */
  function BuildProperties(c: string, entries: seq<(string, Fragment)>): (r: Result<seq<ExportListProperty>>)
    ensures r.Ok? <==> forall i :: 0 <= i < |entries| ==> NewProperty(c, entries[i].0, entries[i].1).Ok?
    ensures r.Ok? ==> |r.value| == |entries|
    ensures r.Ok? ==> forall i :: 0 <= i < |entries| ==> NewProperty(c, entries[i].0, entries[i].1) == Ok(r.value[i])
    ensures r.Err? ==> r.error.InvalidConfiguration?
  {
    if |entries| == 0 then Ok([])
    else
      var first :- NewProperty(c, entries[0].0, entries[0].1);
      var rest :- BuildProperties(c, entries[1..]);
      assert forall i :: 1 <= i < |entries| ==> entries[i] == entries[1..][i - 1];
      Ok([first] + rest)
  }

  /** Builds every class in order; any invalid fragment aborts the whole load. */
  function BuildClasses(entries: seq<ClassEntry>): (r: Result<seq<ClassProperties>>)
    ensures r.Ok? <==> forall i :: 0 <= i < |entries| ==> BuildProperties(entries[i].elementClass, entries[i].properties).Ok?
    ensures r.Ok? ==> |r.value| == |entries|
    ensures r.Ok? ==> forall i :: 0 <= i < |entries| ==>
      r.value[i] == ClassProperties(entries[i].elementClass, BuildProperties(entries[i].elementClass, entries[i].properties).value)
    ensures r.Err? ==> r.error.InvalidConfiguration?
  {
    if |entries| == 0 then Ok([])
    else
      var first :- BuildProperties(entries[0].elementClass, entries[0].properties);
      var rest :- BuildClasses(entries[1..]);
      assert forall i :: 1 <= i < |entries| ==> entries[i] == entries[1..][i - 1];
      Ok([ClassProperties(entries[0].elementClass, first)] + rest)
  }

  /** "Class Property" strings, in the order they are declared. */
  function PublicationStrings(pubs: seq<(string, string)>): (r: seq<string>)
    ensures |r| == |pubs|
    ensures forall i :: 0 <= i < |pubs| ==> r[i] == pubs[i].0 + " " + pubs[i].1
  {
    if |pubs| == 0 then []
    else [pubs[0].0 + " " + pubs[0].1] + PublicationStrings(pubs[1..])
  }

  /** `ExportListReader(path)` after decoding: validates every fragment and
      keeps classes and properties in declared order. */
  function Load(doc: Document): (r: Result<Reader>)
    ensures r.Err? ==> r.error.InvalidConfiguration?
    ensures r.Ok? <==> forall i, j :: 0 <= i < |doc.classes| && 0 <= j < |doc.classes[i].properties| ==>
      NewProperty(doc.classes[i].elementClass, doc.classes[i].properties[j].0, doc.classes[i].properties[j].1).Ok?
    ensures r.Ok? && doc.Current? ==> r.value.publicationList == []
    ensures r.Ok? && doc.Legacy? ==> |r.value.publicationList| == |doc.publications|
    ensures r.Ok? && doc.Legacy? ==> forall i :: 0 <= i < |doc.publications| ==>
      r.value.publicationList[i] == doc.publications[i].0 + " " + doc.publications[i].1
  {
    var classes :- BuildClasses(doc.classes);
    var pubs := if doc.Legacy? then PublicationStrings(doc.publications) else [];
    Ok(Reader(classes, pubs))
  }

  /** `list_element_classes`. */
  function ListElementClasses(reader: Reader): (r: seq<string>)
    ensures |r| == |reader.classes|
    ensures forall i :: 0 <= i < |r| ==> r[i] == reader.classes[i].elementClass
  {
    seq(|reader.classes|, i requires 0 <= i < |reader.classes| => reader.classes[i].elementClass)
  }

  /** Index of the first class named `c`. */
  function FindClass(classes: seq<ClassProperties>, c: string): (r: Option<nat>)
    ensures r.Some? ==> r.value < |classes| && classes[r.value].elementClass == c
    ensures r.Some? ==> forall i :: 0 <= i < r.value ==> classes[i].elementClass != c
    ensures r.None? <==> forall i :: 0 <= i < |classes| ==> classes[i].elementClass != c
  {
    if |classes| == 0 then None
    else if classes[0].elementClass == c then Some(0)
    else match FindClass(classes[1..], c)
      case None => None
      case Some(k) => Some(k + 1)
  }

  /** Index of the first property named `p`. */
  function FindProperty(props: seq<ExportListProperty>, p: string): (r: Option<nat>)
    ensures r.Some? ==> r.value < |props| && props[r.value].name == p
    ensures r.Some? ==> forall i :: 0 <= i < r.value ==> props[i].name != p
    ensures r.None? <==> forall i :: 0 <= i < |props| ==> props[i].name != p
  {
    if |props| == 0 then None
    else if props[0].name == p then Some(0)
    else match FindProperty(props[1..], p)
      case None => None
      case Some(k) => Some(k + 1)
  }

  /** Names of the given properties, in order. */
  function PropertyNames(props: seq<ExportListProperty>): (r: seq<string>)
    ensures |r| == |props|
    ensures forall k :: 0 <= k < |props| ==> r[k] == props[k].name
  {
    seq(|props|, k requires 0 <= k < |props| => props[k].name)
  }

  /** `list_element_properties`: an unknown class is an invalid parameter. */
  function ListElementProperties(reader: Reader, c: string): (r: Result<seq<string>>)
    ensures r.Err? <==> c !in ListElementClasses(reader)
    ensures r.Err? ==> r.error.InvalidParameter?
  {
    match FindClass(reader.classes, c)
    case None => Err(InvalidParameter("invalid element class"))
    case Some(i) => Ok(PropertyNames(reader.classes[i].properties))
  }

  /** `get_element_property`: an unknown class, or an unknown property of a
      known class, is an invalid parameter. */
  function GetElementProperty(reader: Reader, c: string, p: string): (r: Result<ExportListProperty>)
    ensures r.Ok? <==> ListElementProperties(reader, c).Ok? && p in ListElementProperties(reader, c).value
    ensures r.Ok? ==> r.value.name == p
    ensures r.Err? ==> r.error.InvalidParameter?
  {
    match FindClass(reader.classes, c)
    case None => Err(InvalidParameter("invalid element class"))
    case Some(i) =>
      match FindProperty(reader.classes[i].properties, p)
      case None => Err(InvalidParameter("invalid property"))
      case Some(j) =>
        assert PropertyNames(reader.classes[i].properties)[j] == p;
        Ok(reader.classes[i].properties[j])
  }

  /** Class names of a document, in declared order. */
  function DeclaredClasses(entries: seq<ClassEntry>): (r: seq<string>)
    ensures |r| == |entries|
    ensures forall k :: 0 <= k < |entries| ==> r[k] == entries[k].elementClass
  {
    seq(|entries|, k requires 0 <= k < |entries| => entries[k].elementClass)
  }

  /** Property names of one class entry, in declared order. */
  function DeclaredProperties(entries: seq<(string, Fragment)>): (r: seq<string>)
    ensures |r| == |entries|
    ensures forall k :: 0 <= k < |entries| ==> r[k] == entries[k].0
  {
    seq(|entries|, k requires 0 <= k < |entries| => entries[k].0)
  }

  /** Building a class keeps its property names and their order. */
  lemma BuiltPropertyNames(c: string, entries: seq<(string, Fragment)>)
    requires BuildProperties(c, entries).Ok?
    ensures PropertyNames(BuildProperties(c, entries).value) == DeclaredProperties(entries)
  {
    var props := BuildProperties(c, entries).value;
    forall k | 0 <= k < |entries|
      ensures props[k].name == entries[k].0
    {
      assert NewProperty(c, entries[k].0, entries[k].1) == Ok(props[k]);
    }
  }

  /** Loading keeps the declared order of classes and of each class's
      properties. */
  lemma LoadKeepsDeclaredOrder(doc: Document, reader: Reader, i: nat)
    requires WellFormed(doc)
    requires Load(doc) == Ok(reader)
    requires i < |doc.classes|
    ensures ListElementClasses(reader) == DeclaredClasses(doc.classes)
    ensures ListElementProperties(reader, doc.classes[i].elementClass)
      == Ok(DeclaredProperties(doc.classes[i].properties))
  {
    var c := doc.classes[i].elementClass;
    ClassFound(doc, reader, i);
    BuiltPropertyNames(c, doc.classes[i].properties);
  }

  /** A declared class is found at its declared position, holding the
      properties built from its entries. */
  lemma ClassFound(doc: Document, reader: Reader, i: nat)
    requires WellFormed(doc)
    requires Load(doc) == Ok(reader)
    requires i < |doc.classes|
    ensures ListElementClasses(reader) == DeclaredClasses(doc.classes)
    ensures FindClass(reader.classes, doc.classes[i].elementClass) == Some(i)
    ensures BuildProperties(doc.classes[i].elementClass, doc.classes[i].properties)
      == Ok(reader.classes[i].properties)
  {
    LoadedClasses(doc, reader);
    var c := doc.classes[i].elementClass;
    var found := FindClass(reader.classes, c);
    assert reader.classes[i].elementClass == c;
    assert found.Some?;
    assert found.value == i by {
      var k := found.value;
      assert reader.classes[k].elementClass == c;
      assert doc.classes[k].elementClass == c;
    }
  }

  /** What a successful load holds: one built class per declared class, in
      order. */
  lemma LoadedClasses(doc: Document, reader: Reader)
    requires Load(doc) == Ok(reader)
    ensures BuildClasses(doc.classes).Ok?
    ensures reader.classes == BuildClasses(doc.classes).value
    ensures |reader.classes| == |doc.classes|
    ensures forall k :: 0 <= k < |doc.classes| ==>
      && BuildProperties(doc.classes[k].elementClass, doc.classes[k].properties).Ok?
      && reader.classes[k] == ClassProperties(doc.classes[k].elementClass,
           BuildProperties(doc.classes[k].elementClass, doc.classes[k].properties).value)
  {
  }

  /** A loaded reader answers `get_element_property` exactly for the declared
      (class, property) pairs, with the property built from that pair's
      fragment; any other pair is an invalid parameter. */
  lemma LookupMatchesDocument(doc: Document, reader: Reader, c: string, p: string)
    requires WellFormed(doc)
    requires Load(doc) == Ok(reader)
    ensures GetElementProperty(reader, c, p).Ok? <==>
      exists i, j :: 0 <= i < |doc.classes| && 0 <= j < |doc.classes[i].properties| &&
        doc.classes[i].elementClass == c && doc.classes[i].properties[j].0 == p
    ensures forall i, j :: (0 <= i < |doc.classes| && 0 <= j < |doc.classes[i].properties| &&
        doc.classes[i].elementClass == c && doc.classes[i].properties[j].0 == p) ==>
      GetElementProperty(reader, c, p) == NewProperty(c, p, doc.classes[i].properties[j].1)
    ensures GetElementProperty(reader, c, p).Err? ==> GetElementProperty(reader, c, p).error.InvalidParameter?
  {
    forall i, j | 0 <= i < |doc.classes| && 0 <= j < |doc.classes[i].properties| &&
        doc.classes[i].elementClass == c && doc.classes[i].properties[j].0 == p
      ensures GetElementProperty(reader, c, p) == NewProperty(c, p, doc.classes[i].properties[j].1)
    {
      LookupDeclaredPair(doc, reader, i, j);
    }
    if GetElementProperty(reader, c, p).Ok? {
      LookupFoundIsDeclared(doc, reader, c, p);
    }
  }

  /** A declared pair is found, with the property its fragment builds. */
  lemma LookupDeclaredPair(doc: Document, reader: Reader, i: nat, j: nat)
    requires WellFormed(doc)
    requires Load(doc) == Ok(reader)
    requires i < |doc.classes| && j < |doc.classes[i].properties|
    ensures var c := doc.classes[i].elementClass;
      var p := doc.classes[i].properties[j].0;
      GetElementProperty(reader, c, p) == NewProperty(c, p, doc.classes[i].properties[j].1)
  {
    var c := doc.classes[i].elementClass;
    var p := doc.classes[i].properties[j].0;
    ClassFound(doc, reader, i);
    PropertyFound(c, doc.classes[i].properties, reader.classes[i].properties, j);
  }

  /** Within one built class, a declared property is found at its declared
      position. */
  lemma PropertyFound(c: string, entries: seq<(string, Fragment)>, props: seq<ExportListProperty>, j: nat)
    requires DistinctKeys(entries)
    requires BuildProperties(c, entries) == Ok(props)
    requires j < |entries|
    ensures FindProperty(props, entries[j].0) == Some(j)
    ensures NewProperty(c, entries[j].0, entries[j].1) == Ok(props[j])
  {
    var p := entries[j].0;
    var found := FindProperty(props, p);
    assert props[j].name == p;
    assert found.Some?;
    var k := found.value;
    assert NewProperty(c, entries[k].0, entries[k].1) == Ok(props[k]);
    assert entries[k].0 == p;
  }

  /** A pair the reader finds is a declared pair. */
  lemma LookupFoundIsDeclared(doc: Document, reader: Reader, c: string, p: string)
    requires Load(doc) == Ok(reader)
    requires GetElementProperty(reader, c, p).Ok?
    ensures exists i, j :: (0 <= i < |doc.classes| && 0 <= j < |doc.classes[i].properties| &&
      doc.classes[i].elementClass == c && doc.classes[i].properties[j].0 == p)
  {
    assert reader.classes == BuildClasses(doc.classes).value;
    var i := FindClass(reader.classes, c).value;
    var j := FindProperty(reader.classes[i].properties, p).value;
    assert doc.classes[i].properties[j].0 == p;
  }

  /** The two schemas converge: a legacy document and a current document with
      the same classes load to readers that list the same classes and
      properties and hand out the same properties.  Both layouts are
      normalised to the same class list before loading, so this holds by
      construction; deciding which layout a file uses is not modelled. */
  lemma SchemasAgree(classes: seq<ClassEntry>, pubs: seq<(string, string)>, c: string, p: string)
    ensures Load(Current(classes)).Ok? <==> Load(Legacy(classes, pubs)).Ok?
    ensures Load(Current(classes)).Ok? ==>
      var cur := Load(Current(classes)).value;
      var leg := Load(Legacy(classes, pubs)).value;
      && ListElementClasses(cur) == ListElementClasses(leg)
      && ListElementProperties(cur, c) == ListElementProperties(leg, c)
      && GetElementProperty(cur, c, p) == GetElementProperty(leg, c, p)
  {
  }
}

=== FILE: extrema.dfy ===
/** Python's `max` and `min` over a non-empty list of numbers. */
module Extrema {

  function MaxOf(s: seq<real>): (r: real)
    requires |s| > 0
    ensures r in s
    ensures forall k :: 0 <= k < |s| ==> s[k] <= r
  {
    if |s| == 1 then s[0]
    else
      var rest := MaxOf(s[1..]);
      if s[0] >= rest then s[0] else rest
  }

  function MinOf(s: seq<real>): (r: real)
    requires |s| > 0
    ensures r in s
    ensures forall k :: 0 <= k < |s| ==> r <= s[k]
  {
    if |s| == 1 then s[0]
    else
      var rest := MinOf(s[1..]);
      if s[0] <= rest then s[0] else rest
  }
}

=== FILE: line_units.dfy ===
/** Two small solver-independent pieces of the voltage-upgrade post-processor:
    the line-length conversion used while building the feeder graph, and the
    log of upgrade commands that is later written to a `.dss` file. */
module LineUnits {

  /** Metres per unit for each line-length unit code of the circuit solver:
      1 mile, 2 thousand feet, 3 kilometre, 4 metre, 5 foot, 6 inch,
      7 centimetre. */
  const MetresPerUnit: map<int, real> :=
    map[1 := 1609.34, 2 := 304.8, 3 := 1000.0, 4 := 1.0, 5 := 0.3048, 6 := 0.0254, 7 := 0.01]

  /** The length conversion in `generate_edges`; any other unit code (0,
      "none", among them) leaves the length as the solver reports it. */
  function ConvertLength(length: real, units: int): (r: real)
    ensures units in MetresPerUnit ==> r == length * MetresPerUnit[units]
    ensures units !in MetresPerUnit ==> r == length
  {
    if units == 1 then length * 1609.34
    else if units == 2 then length * 304.8
    else if units == 3 then length * 1000.0
    else if units == 4 then length
    else if units == 5 then length * 0.3048
    else if units == 6 then length * 0.0254
    else if units == 7 then length * 0.01
    else length
  }

  /** Every factor is positive, so for a fixed unit code the conversion is
      strictly increasing and loses no information. */
  lemma ConvertKeepsOrder(a: real, b: real, units: int)
    ensures a <= b <==> ConvertLength(a, units) <= ConvertLength(b, units)
    ensures ConvertLength(a, units) == ConvertLength(b, units) ==> a == b
  {
    if units in MetresPerUnit {
      var f := MetresPerUnit[units];
      assert f > 0.0;
      if a <= b {
        assert a * f <= b * f;
      } else {
        assert b * f < a * f;
      }
    }
  }

  /** `write_dss_file`: records one command, newline-terminated. */
  function AppendUpgrade(log: seq<string>, command: string): (r: seq<string>)
    ensures |r| == |log| + 1
    ensures r[..|log|] == log
    ensures r[|log|] == command + "\n"
  {
    log + [command + "\n"]
  }

  /** The first line of the upgrades log, written by the constructor. */
  const UpgradesHeader: string :=
    "//This file has all the upgrades determined using the control device placement algorithm \n"

  /** The log after the constructor's header and then `commands`, recorded in
      order; `write_upgrades_to_file` writes its lines out as they stand. */
  function Record(commands: seq<string>): (r: seq<string>)
    ensures |r| == |commands| + 1
    ensures r[0] == UpgradesHeader
  {
    if |commands| == 0 then [UpgradesHeader]
    else AppendUpgrade(Record(commands[..|commands| - 1]), commands[|commands| - 1])
  }

  /** A log line with its newline removed. */
  function StripNewline(line: string): string {
    if |line| > 0 && line[|line| - 1] == '\n' then line[..|line| - 1] else line
  }

  /** Reading the log back, line by line without the terminators, gives the
      header comment and then the recorded commands in the order they were
      recorded. */
  lemma {:induction false} RecordRoundTrip(commands: seq<string>)
    ensures StripNewline(Record(commands)[0]) + "\n" == UpgradesHeader
    ensures forall k :: 0 <= k < |commands| ==> StripNewline(Record(commands)[k + 1]) == commands[k]
  {
    var h := UpgradesHeader;
    assert h[|h| - 1] == '\n' && h[..|h| - 1] + "\n" == h;
    if |commands| > 0 {
      var n := |commands| - 1;
      RecordRoundTrip(commands[..n]);
      var log := Record(commands);
      assert log[..n + 1] == Record(commands[..n]);
      forall k | 0 <= k < |commands|
        ensures StripNewline(log[k + 1]) == commands[k]
      {
        if k < n {
          assert log[k + 1] == Record(commands[..n])[k + 1];
          assert commands[..n][k] == commands[k];
        } else {
          assert log[k + 1] == commands[k] + "\n";
          assert (commands[k] + "\n")[..|commands[k]|] == commands[k];
        }
      }
    }
  }
}

=== FILE: motor_stall.dfy ===
/** The motor-stall controller (a residential air-conditioner, "Type D"
    motor).  The controller's state is a value; `Update` is its transition
    function for one call at one priority.  The solver's clock
    (`GetTotalSeconds`) and the element's `VoltagesMagAng` reading are
    parameters, and the element parameters the controller sets (`kw`, `kvar`,
    `model`, `vminpu`) are an output record. */
module MotorStall {
  import opened Outcomes
  import opened Extrema

  /** The controller settings.  `ratedKvar` is the reactive power the
      constructor derives from `ratedKW` and `ratedPF`. */
  datatype Settings = Settings(
    ratedKW: real,
    ratedKvar: real,
    vStall: real,
    pFault: real,
    qFault: real,
    tProtection: real,
    tReconnect: real)

  /** The parameters last written to the controlled load element. */
  datatype LoadParams = LoadParams(kw: real, kvar: real, model: int, vminpu: real)

  datatype State = State(
    kw: real,
    kvar: real,
    stall: bool,
    disconnected: bool,
    stallTimeStart: real,
    tDisconnectStart: real,
    stallTime: Option<real>,
    load: LoadParams)

  /** The result of one `Update` call: the new state and the returned error
      estimate. */
  datatype Step = Step(state: State, ret: real)

  /** The load while running normally, as the constructor sets it. */
  function NormalLoad(st: State): LoadParams {
    LoadParams(st.kw, st.kvar, 2, 0.0)
  }

  /** The load while stalled: both powers scale the rated kW. */
  function FaultLoad(st: State, s: Settings): LoadParams {
    LoadParams(st.kw * s.pFault, st.kw * s.qFault, 1, 0.0)
  }

  /** `MotorStall.__init__`. */
  function Init(s: Settings): (st: State)
    ensures !st.stall && !st.disconnected
    ensures st.stallTimeStart == 0.0 && st.tDisconnectStart == 0.0
    ensures st.kw == s.ratedKW && st.kvar == s.ratedKvar
    ensures st.load == LoadParams(s.ratedKW, s.ratedKvar, 2, 0.0)
  {
    State(s.ratedKW, s.ratedKvar, false, false, 0.0, 0.0, None, LoadParams(s.ratedKW, s.ratedKvar, 2, 0.0))
  }

  /** Every other entry of `VoltagesMagAng`: the magnitudes. */
  function Magnitudes(magAng: seq<real>): (r: seq<real>)
    ensures |r| == (|magAng| + 1) / 2
    ensures forall k :: 0 <= k < |r| ==> r[k] == magAng[2 * k]
  {
    if |magAng| <= 2 then (if |magAng| == 0 then [] else [magAng[0]])
    else [magAng[0]] + Magnitudes(magAng[2..])
  }

  /** The per-unit voltage the controller compares with `Vstall`: the largest
      phase magnitude over a 120 V base. */
  function PerUnitVoltage(magAng: seq<real>): (v: real)
    requires |magAng| > 0
    ensures v * 120.0 in Magnitudes(magAng)
    ensures forall x :: x in Magnitudes(magAng) ==> x <= v * 120.0
  {
    MaxOf(Magnitudes(magAng)) / 120.0
  }

  /** `MotorStall.Update(Priority, Time, UpdateResults)` with the clock reading
      `now` and the element's voltages `magAng` (read only at priority 0). */
  function Update(st: State, s: Settings, priority: int, now: real, magAng: seq<real>): (r: Step)
    requires priority == 0 ==> |magAng| > 0
    ensures r.ret == 0.1 || r.ret == 0.0
    ensures r.ret == 0.1 <==> priority == 0 && !st.stall && PerUnitVoltage(magAng) < s.vStall
    ensures r.state.kw == st.kw && r.state.kvar == st.kvar
    ensures priority == 0 && r.ret == 0.1 ==>
      r.state == st.(stall := true, stallTimeStart := now,
                     load := LoadParams(st.kw * s.pFault, st.kw * s.qFault, 1, st.load.vminpu))
    ensures priority == 0 && r.ret == 0.0 ==> r.state == st
    ensures priority == 1 && st.stall && now - st.stallTimeStart > s.tProtection ==>
      r.state == st.(stallTime := Some(now - st.stallTimeStart), stall := false, disconnected := true,
                     load := st.load.(kw := 0.0, kvar := 0.0), tDisconnectStart := now)
    ensures priority == 1 && !(st.stall && now - st.stallTimeStart > s.tProtection) ==>
      r.state == (if st.stall then st.(stallTime := Some(now - st.stallTimeStart)) else st)
    ensures priority == 2 && st.disconnected && now - st.tDisconnectStart > s.tReconnect ==>
      r.state == st.(disconnected := false, load := LoadParams(st.kw, st.kvar, 2, 0.0))
    ensures priority == 2 && !(st.disconnected && now - st.tDisconnectStart > s.tReconnect) ==> r.state == st
    ensures priority !in {0, 1, 2} ==> r.state == st
  {
    if priority == 0 then
      if PerUnitVoltage(magAng) < s.vStall && !st.stall then
        var load := st.load.(kw := st.kw * s.pFault, kvar := st.kw * s.qFault, model := 1);
        Step(st.(stall := true, stallTimeStart := now, load := load), 0.1)
      else
        Step(st, 0.0)
    else if priority == 1 then
      if st.stall then
        var elapsed := now - st.stallTimeStart;
        if elapsed > s.tProtection then
          var load := st.load.(kw := 0.0, kvar := 0.0);
          Step(st.(stallTime := Some(elapsed), stall := false, disconnected := true,
                   load := load, tDisconnectStart := now), 0.0)
        else
          Step(st.(stallTime := Some(elapsed)), 0.0)
      else
        Step(st, 0.0)
    else if priority == 2 then
      if st.disconnected && now - st.tDisconnectStart > s.tReconnect then
        Step(st.(disconnected := false, load := NormalLoad(st)), 0.0)
      else
        Step(st, 0.0)
    else
      Step(st, 0.0)
  }

  /** The call as the controller makes it: with no voltage reading, taking
      the largest magnitude at priority 0 raises `ValueError` before the stall
      flag is looked at -- so also for a motor already stalled.  Every other
      call is the transition `Update`. */
  function TryUpdate(st: State, s: Settings, priority: int, now: real, magAng: seq<real>): (r: Result<Step>)
    ensures r.Err? <==> priority == 0 && |magAng| == 0
    ensures r.Err? ==> r.error == ValueError
    ensures r.Ok? ==> r.value == Update(st, s, priority, now, magAng)
    ensures r.Ok? ==> (r.value.ret == 0.1 <==> priority == 0 && !st.stall && PerUnitVoltage(magAng) < s.vStall)
    ensures r.Ok? && priority != 0 ==> r.value == Update(st, s, priority, now, [])
  {
    if priority == 0 && |magAng| == 0 then Err(ValueError)
    else Ok(Update(st, s, priority, now, magAng))
  }

  /** What the element carries in each controller state: the rated load while
      running, no power while disconnected, the fault load while stalled and
      disconnected.  A stalled, connected motor carries the fault load or --
      after a reconnection during a renewed stall -- the rated load. */
  predicate Consistent(st: State, s: Settings) {
    && st.load.vminpu == 0.0
    && (!st.stall && !st.disconnected ==> st.load == NormalLoad(st))
    && (!st.stall && st.disconnected ==> st.load.kw == 0.0 && st.load.kvar == 0.0)
    && (st.stall && st.disconnected ==> st.load == FaultLoad(st, s))
    && (st.stall && !st.disconnected ==> st.load == FaultLoad(st, s) || st.load == NormalLoad(st))
  }

  lemma UpdatePreservesConsistency(st: State, s: Settings, priority: int, now: real, magAng: seq<real>)
    requires priority == 0 ==> |magAng| > 0
    requires Consistent(st, s)
    ensures Consistent(Update(st, s, priority, now, magAng).state, s)
  {
    var r := Update(st, s, priority, now, magAng);
    if priority == 0 {
      assert r.ret == 0.1 ==> r.state.load == FaultLoad(r.state, s);
    } else if priority == 1 {
      assert r.state.stall ==> r.state == st.(stallTime := r.state.stallTime);
    } else if priority == 2 {
      assert r.state.disconnected ==> r.state == st;
    }
  }

  /** One controller call: its priority, the clock reading and the voltages. */
  datatype Call = Call(priority: int, now: real, magAng: seq<real>)

  predicate ValidCall(c: Call) {
    c.priority == 0 ==> |c.magAng| > 0
  }

  /** The state after constructing the controller and making `calls` in order. */
  function Run(s: Settings, calls: seq<Call>): State
    requires forall k :: 0 <= k < |calls| ==> ValidCall(calls[k])
  {
    if |calls| == 0 then Init(s)
    else
      var last := calls[|calls| - 1];
      assert forall k :: 0 <= k < |calls| - 1 ==> calls[..|calls| - 1][k] == calls[k];
      assert ValidCall(last);
      Update(Run(s, calls[..|calls| - 1]), s, last.priority, last.now, last.magAng).state
  }

  /** Every state the controller reaches is consistent. */
  lemma {:induction false} RunIsConsistent(s: Settings, calls: seq<Call>)
    requires forall k :: 0 <= k < |calls| ==> ValidCall(calls[k])
    ensures Consistent(Run(s, calls), s)
    ensures Run(s, calls).kw == s.ratedKW && Run(s, calls).kvar == s.ratedKvar
  {
    if |calls| > 0 {
      var last := calls[|calls| - 1];
      RunIsConsistent(s, calls[..|calls| - 1]);
      UpdatePreservesConsistency(Run(s, calls[..|calls| - 1]), s, last.priority, last.now, last.magAng);
    }
  }

  /** A stall in progress is never re-triggered, so its start time stands. */
  lemma StallNotRetriggered(st: State, s: Settings, now: real, magAng: seq<real>)
    requires |magAng| > 0
    requires st.stall
    ensures Update(st, s, 0, now, magAng) == Step(st, 0.0)
  {
  }

  /** "Never both stalled and disconnected" is not an invariant: the
      priority-0 guard looks at `stall` only, so a disconnected motor stalls
      again when the voltage sags. */
  lemma StalledWhileDisconnectedReachable()
    ensures var s := Settings(1.0, 0.5, 0.8, 3.0, 2.0, 1.0, 10.0);
      var low := [60.0, 0.0];
      var calls := [Call(0, 0.0, low), Call(1, 2.0, []), Call(0, 3.0, low)];
      && (forall k :: 0 <= k < |calls| ==> ValidCall(calls[k]))
      && Run(s, calls).stall && Run(s, calls).disconnected
  {
    var s := Settings(1.0, 0.5, 0.8, 3.0, 2.0, 1.0, 10.0);
    var low := [60.0, 0.0];
    var calls := [Call(0, 0.0, low), Call(1, 2.0, []), Call(0, 3.0, low)];
    assert PerUnitVoltage(low) == 0.5;
    assert calls[..2][..1] == [Call(0, 0.0, low)];
    assert calls[..2] == [Call(0, 0.0, low), Call(1, 2.0, [])];
    var s0 := Run(s, calls[..2][..1][..0]);
    assert calls[..2][..1][..0] == [];
    assert s0 == Init(s);
    var s1 := Run(s, calls[..2][..1]);
    assert s1 == Update(s0, s, 0, 0.0, low).state;
    assert s1.stall && s1.stallTimeStart == 0.0;
    var s2 := Run(s, calls[..2]);
    assert s2.disconnected && !s2.stall;
  }
}

=== FILE: outcomes.dfy ===
/** Failure-carrying results shared by the model: the two exception kinds the
    export-list code raises, plus the Python errors the post-processor can hit. */
module Outcomes {

  /** The value that Python represents with `None` or an empty string. */
  datatype Option<+T> = None | Some(value: T)

  /** `InvalidConfiguration` and `InvalidParameter` come from PyDSS's exception
      module; `IndexError` is Python's error for an out-of-range subscript and
      `ValueError` its error for the largest element of an empty sequence. */
  datatype Error =
    | InvalidConfiguration(reason: string)
    | InvalidParameter(reason: string)
    | IndexError
    | ValueError

  datatype Result<+T> = Ok(value: T) | Err(error: Error) {
    predicate IsFailure() {
      Err?
    }

    function PropagateFailure<U>(): Result<U>
      requires Err?
    {
      Err(error)
    }

    function Extract(): T
      requires Ok?
    {
      value
    }
  }

  /** True when no element occurs twice. */
  predicate NoDuplicates<T(==)>(s: seq<T>) {
    forall i, j :: 0 <= i < j < |s| ==> s[i] != s[j]
  }
}

=== FILE: setting_selection.dfy ===
/** Choosing the best device setting after a sweep.  Each sweep records, per
    setting key ("original" or "<a>_<b>"), the objective `severity_indices[2]`
    it produced; `apply_best_capsetting`, `apply_best_regsetting` and
    `apply_best_LTCsetting` pick the key with the smallest objective below an
    initial bound and then split it on '_'.  `add_new_reg_common_nodes` picks
    a node the same way but with `<=`. */
module SettingSelection {
  import opened Outcomes
  import opened Violations
  import opened Extrema

  /** The values of an ordered (key, value) table. */
  function Values(entries: seq<(string, real)>): (r: seq<real>)
    ensures |r| == |entries|
    ensures forall k :: 0 <= k < |entries| ==> r[k] == entries[k].1
  {
    seq(|entries|, k requires 0 <= k < |entries| => entries[k].1)
  }

  /** The initial bound of every selection loop: buses squared, times the
      number of test time points, times the upper voltage limit. */
  function SeverityBound(numBuses: nat, numTimePoints: nat, upper: real): (r: real)
    ensures upper >= 0.0 ==> 0.0 <= r <= IntendedSeverityBound(numBuses, numTimePoints, upper)
  {
    BoundFactorsOrdered(numBuses, numTimePoints, upper);
    (numBuses * numBuses * numTimePoints) as real * upper
  }

  /** `n*n*T <= (n*T)*(n*T)` for natural numbers, scaled by a non-negative
      limit. */
  lemma BoundFactorsOrdered(n: nat, t: nat, upper: real)
    ensures upper >= 0.0 ==> 0.0 <= (n * n * t) as real * upper <= ((n * t) * (n * t)) as real * upper
  {
    var a := n * n * t;
    var b := (n * t) * (n * t);
    assert b == a * t;
    assert a <= b by {
      if t > 0 {
        assert a * t >= a * 1;
      }
    }
    RealScaleMonotone(a, b, upper);
  }

  lemma RealScaleMonotone(a: nat, b: nat, upper: real)
    requires a <= b
    ensures upper >= 0.0 ==> 0.0 <= a as real * upper <= b as real * upper
  {
  }

  /** The strict-`<` selection loop, as the state after the values seen so far:
      the first minimal value below `bound`, or `None` (the source's '') when
      no value is below it. */
  function FirstBelow(vals: seq<real>, bound: real): (r: Option<nat>)
    ensures r.None? <==> forall j :: 0 <= j < |vals| ==> vals[j] >= bound
    ensures r.Some? ==> r.value < |vals| && vals[r.value] < bound
    ensures r.Some? ==> forall j :: 0 <= j < |vals| ==> vals[r.value] <= vals[j]
    ensures r.Some? ==> forall j :: 0 <= j < r.value ==> vals[r.value] < vals[j]
  {
    if |vals| == 0 then None
    else
      var prev := FirstBelow(vals[..|vals| - 1], bound);
      var current := if prev.Some? then vals[prev.value] else bound;
      if vals[|vals| - 1] < current then Some(|vals| - 1) else prev
  }

  /** The `<=` selection loop of `add_new_reg_common_nodes`: the LAST minimal
      value not above `bound`, or `None` when every value exceeds it. */
  function LastAtMost(vals: seq<real>, bound: real): (r: Option<nat>)
    ensures r.None? <==> forall j :: 0 <= j < |vals| ==> vals[j] > bound
    ensures r.Some? ==> r.value < |vals| && vals[r.value] <= bound
    ensures r.Some? ==> forall j :: 0 <= j < |vals| ==> vals[r.value] <= vals[j]
    ensures r.Some? ==> forall j :: r.value < j < |vals| ==> vals[r.value] < vals[j]
  {
    if |vals| == 0 then None
    else
      var prev := LastAtMost(vals[..|vals| - 1], bound);
      var current := if prev.Some? then vals[prev.value] else bound;
      if vals[|vals| - 1] <= current then Some(|vals| - 1) else prev
  }

  /** The node chosen for one cluster, or `None` (the source's '', which skips
      the cluster). */
  function SelectMinNode(entries: seq<(string, real)>, bound: real): (r: Option<string>)
    ensures r.None? <==> forall j :: 0 <= j < |entries| ==> entries[j].1 > bound
    ensures r.Some? ==> exists k :: (0 <= k < |entries| && entries[k].0 == r.value &&
      entries[k].1 <= bound &&
      (forall j :: 0 <= j < |entries| ==> entries[k].1 <= entries[j].1) &&
      (forall j :: k < j < |entries| ==> entries[k].1 < entries[j].1))
  {
    match LastAtMost(Values(entries), bound)
    case None => None
    case Some(k) => Some(entries[k].0)
  }

  /** Python's `s.split(sep)`: always at least one part, none containing
      `sep`; there is more than one part exactly when `sep` occurs. */
  function Split(s: string, sep: char): (r: seq<string>)
    ensures |r| >= 1
    ensures forall k :: 0 <= k < |r| ==> sep !in r[k]
    ensures |r| == 1 <==> sep !in s
  {
    if |s| == 0 then [""]
    else
      var rest := Split(s[1..], sep);
      if s[0] == sep then [""] + rest
      else [[s[0]] + rest[0]] + rest[1..]
  }

  /** `sep.join(parts)`. */
  function Join(parts: seq<string>, sep: char): string
    requires |parts| >= 1
  {
    if |parts| == 1 then parts[0] else parts[0] + [sep] + Join(parts[1..], sep)
  }

  /** Splitting loses nothing: joining the parts back gives the key. */
  lemma {:induction false} JoinSplit(s: string, sep: char)
    ensures Join(Split(s, sep), sep) == s
  {
    if |s| > 0 {
      JoinSplit(s[1..], sep);
      var rest := Split(s[1..], sep);
      if s[0] == sep {
        assert Split(s, sep)[1..] == rest;
        assert s == [sep] + s[1..];
      } else {
        var parts := Split(s, sep);
        if |rest| == 1 {
          assert parts == [[s[0]] + rest[0]];
          assert s == [s[0]] + s[1..];
        } else {
          assert parts[1..] == rest[1..];
          assert Join(rest, sep) == rest[0] + [sep] + Join(rest[1..], sep);
          assert s == [s[0]] + s[1..];
        }
      }
    }
  }

  /** What the apply step does with the chosen key. */
  datatype Action = RestoreOriginal | ApplySetting(first: string, second: string)

  /** "original" restores the initial settings; any other key is split on '_'
      and its first two parts applied.  A key without '_' -- the empty key
      among them -- fails on `split("_")[1]`. */
  function ChooseAction(best: string): (r: Result<Action>)
    ensures r.Err? <==> best != "original" && '_' !in best
    ensures r.Err? ==> r.error == IndexError
    ensures r.Ok? <==> best == "original" || '_' in best
    ensures r.Ok? && r.value.ApplySetting? ==> '_' !in r.value.first && '_' !in r.value.second
    ensures r.Ok? && r.value.ApplySetting? ==>
      var parts := Split(best, '_');
      |parts| >= 2 && parts[0] == r.value.first && parts[1] == r.value.second
  {
    if best == "original" then Ok(RestoreOriginal)
    else
      var parts := Split(best, '_');
      if |parts| < 2 then Err(IndexError) else Ok(ApplySetting(parts[0], parts[1]))
  }

  /** `apply_best_capsetting` / `apply_best_regsetting` /
      `apply_best_LTCsetting`, up to the solver commands: select below the
      bound, then act on the key. */
  function ApplyBestSetting(entries: seq<(string, real)>, bound: real): (r: Result<Action>)
    ensures (forall j :: 0 <= j < |entries| ==> entries[j].1 >= bound) ==> r == Err(IndexError)
    ensures (exists j :: 0 <= j < |entries| && entries[j].1 < bound) ==>
      exists k :: (0 <= k < |entries| && entries[k].1 < bound &&
        (forall j :: 0 <= j < |entries| ==> entries[k].1 <= entries[j].1) &&
        (forall j :: 0 <= j < k ==> entries[k].1 < entries[j].1) &&
        r == ChooseAction(entries[k].0))
  {
    match FirstBelow(Values(entries), bound)
    case None => ChooseAction("")
    case Some(k) => ChooseAction(entries[k].0)
  }

  /** The bound is not the largest severity it stands for: one bus held at
      0.5 pu over the four test time points yields an objective of 8.8, above
      the bound of 4.2, so a sweep whose every setting is that bad selects
      nothing, and the apply step fails on the empty key. */
  lemma SeverityBoundBelowAttainable()
    ensures var s := Settings(1.05, 0.95);
      var V := [[[0.5]], [[0.5]], [[0.5]], [[0.5]]];
      && TotalCount(V, s) == 4
      && TotalSeverity(V, s) == 2.2
      && SeverityIndices(TotalCount(V, s), TotalSeverity(V, s))[2] == 8.8
      && SeverityBound(1, |V|, s.upper) == 4.2
      && ApplyBestSetting([("original", 8.8)], SeverityBound(1, |V|, s.upper)) == Err(IndexError)
  {
    var s := Settings(1.05, 0.95);
    var row: seq<seq<real>> := [[0.5]];
    assert row[..0] == [];
    assert MaxOf([0.5]) == 0.5 && MinOf([0.5]) == 0.5;
    assert IsViolation([0.5], s) && Deviation([0.5], s) == 0.55;
    assert RowCount(row, s) == 1;
    assert RowSeverity(row, s) == 0.55;
    var V: seq<seq<seq<real>>> := [row, row, row, row];
    var V0: seq<seq<seq<real>>> := [];
    var V1, V2, V3 := [row], [row, row], [row, row, row];
    assert V1[..0] == V0 && V2[..1] == V1 && V3[..2] == V2 && V[..3] == V3;
    assert TotalCount(V1, s) == 1 && TotalSeverity(V1, s) == 0.55;
    assert TotalCount(V2, s) == 2 && TotalSeverity(V2, s) == 1.1;
    assert TotalCount(V3, s) == 3 && TotalSeverity(V3, s) == 1.65;
    assert ChooseAction("") == Err(IndexError);
  }

  /** The selection the bound was meant to give: the first minimal entry,
      found whenever the table is non-empty. */
  function FirstMinimal(vals: seq<real>): (r: Option<nat>)
    ensures r.None? <==> |vals| == 0
    ensures r.Some? ==> r.value < |vals|
    ensures r.Some? ==> forall j :: 0 <= j < |vals| ==> vals[r.value] <= vals[j]
    ensures r.Some? ==> forall j :: 0 <= j < r.value ==> vals[r.value] < vals[j]
  {
    if |vals| == 0 then None
    else
      var prev := FirstMinimal(vals[..|vals| - 1]);
      if prev.None? || vals[|vals| - 1] < vals[prev.value] then Some(|vals| - 1) else prev
  }

  /** The bound the comment beside it describes -- every bus violating at
      every time point, each by the upper limit: the count is at most
      buses times time points, and so is the number of deviations summed. */
  function IntendedSeverityBound(numBuses: nat, numTimePoints: nat, upper: real): real {
    ((numBuses * numTimePoints) * (numBuses * numTimePoints)) as real * upper
  }

  /** The severity of `n` violations that each reach the upper limit. */
  function AtLimit(n: nat, upper: real): real {
    if n == 0 then 0.0 else AtLimit(n - 1, upper) + upper
  }

  lemma {:induction false} AtLimitAdds(a: nat, b: nat, upper: real)
    ensures AtLimit(a + b, upper) == AtLimit(a, upper) + AtLimit(b, upper)
  {
    if b > 0 {
      AtLimitAdds(a, b - 1, upper);
      assert a + b - 1 == a + (b - 1);
    }
  }

  lemma {:induction false} AtLimitIsProduct(n: nat, upper: real)
    ensures AtLimit(n, upper) == n as real * upper
  {
    if n > 0 {
      AtLimitIsProduct(n - 1, upper);
      assert n as real * upper == (n - 1) as real * upper + upper;
    }
  }

  /** Each violation of a time point adds at most `upper`. */
  lemma {:induction false} RowSeverityAtMost(row: seq<seq<real>>, s: Settings)
    requires forall i :: 0 <= i < |row| ==> Deviation(row[i], s) <= s.upper
    ensures RowSeverity(row, s) <= AtLimit(RowCount(row, s), s.upper)
  {
    if |row| > 0 {
      var front := row[..|row| - 1];
      assert forall i :: 0 <= i < |front| ==> front[i] == row[i];
      RowSeverityAtMost(front, s);
    }
  }

  /** Over all time points, with `numBuses` samples each, at most one
      violation per sample. */
  lemma {:induction false} TotalCountAtMost(V: seq<seq<seq<real>>>, s: Settings, numBuses: nat)
    requires forall t :: 0 <= t < |V| ==> |V[t]| == numBuses
    ensures TotalCount(V, s) <= numBuses * |V|
  {
    if |V| > 0 {
      var front := V[..|V| - 1];
      assert forall t :: 0 <= t < |front| ==> front[t] == V[t];
      TotalCountAtMost(front, s, numBuses);
      RowCountAtMost(V[|V| - 1], s);
      MultiplyStep(numBuses, |front|);
    }
  }

  lemma {:induction false} RowCountAtMost(row: seq<seq<real>>, s: Settings)
    ensures RowCount(row, s) <= |row|
  {
    if |row| > 0 {
      RowCountAtMost(row[..|row| - 1], s);
    }
  }

  lemma MultiplyStep(a: nat, b: nat)
    ensures a * (b + 1) == a * b + a
  {
  }

  /** Over all time points, each violation still adds at most `upper`. */
  lemma {:induction false} TotalSeverityAtMost(V: seq<seq<seq<real>>>, s: Settings)
    requires forall t, i :: 0 <= t < |V| && 0 <= i < |V[t]| ==> Deviation(V[t][i], s) <= s.upper
    ensures TotalSeverity(V, s) <= AtLimit(TotalCount(V, s), s.upper)
  {
    if |V| > 0 {
      var front := V[..|V| - 1];
      var last := V[|V| - 1];
      assert forall t :: 0 <= t < |front| ==> front[t] == V[t];
      TotalSeverityAtMost(front, s);
      RowSeverityAtMost(last, s);
      AtLimitAdds(TotalCount(front, s), RowCount(last, s), s.upper);
    }
  }

  /** `c` samples, each at most `upper` off: the objective is below `m`
      squared limits once `c <= m`. */
  lemma ProductBound(c: nat, numBuses: nat, numTimePoints: nat, severity: real, upper: real)
    requires c <= numBuses * numTimePoints && upper >= 0.0 && severity <= c as real * upper
    ensures c as real * severity <= IntendedSeverityBound(numBuses, numTimePoints, upper)
  {
    var m := numBuses * numTimePoints;
    var cr := c as real;
    var mr := m as real;
    assert cr * severity <= cr * (cr * upper);
    assert cr * cr <= mr * mr;
    assert (cr * cr) * upper <= (mr * mr) * upper;
    assert (m * m) as real == mr * mr;
  }

  lemma ObjectiveBound(c: nat, numBuses: nat, numTimePoints: nat, severity: real, upper: real)
    requires upper >= 0.0
    requires c <= numBuses * numTimePoints
    requires severity <= AtLimit(c, upper)
    ensures SeverityIndices(c, severity)[2] <= IntendedSeverityBound(numBuses, numTimePoints, upper)
  {
    AtLimitIsProduct(c, upper);
    ProductBound(c, numBuses, numTimePoints, severity, upper);
  }

  /** The intended bound does bound the objective, so with it (and with no
      bound at all, `FirstMinimal`) a sweep always has a candidate. */
  lemma ObjectiveWithinIntendedBound(V: seq<seq<seq<real>>>, s: Settings, numBuses: nat)
    requires s.upper >= 0.0
    requires forall t :: 0 <= t < |V| ==> |V[t]| == numBuses
    requires forall t, i :: 0 <= t < |V| && 0 <= i < |V[t]| ==> Deviation(V[t][i], s) <= s.upper
    ensures SeverityIndices(TotalCount(V, s), TotalSeverity(V, s))[2] <= IntendedSeverityBound(numBuses, |V|, s.upper)
  {
    var c := TotalCount(V, s);
    var severity := TotalSeverity(V, s);
    TotalCountAtMost(V, s, numBuses);
    TotalSeverityAtMost(V, s);
    ObjectiveBound(c, numBuses, |V|, severity, s.upper);
  }

  /** Below a bound that exceeds every value, the source's loop and the
      intended selection agree. */
  lemma FirstBelowAgreesWhenBoundIsHigh(vals: seq<real>, bound: real)
    requires forall j :: 0 <= j < |vals| ==> vals[j] < bound
    ensures FirstBelow(vals, bound) == FirstMinimal(vals)
  {
  }

  /** The intended apply step: select without a bound.  For a non-empty table
      of well-formed keys it always reaches a setting or the original. */
  function ApplyBestSettingCorrected(entries: seq<(string, real)>): (r: Result<Action>)
    ensures |entries| > 0 && (forall j :: 0 <= j < |entries| ==> entries[j].0 == "original" || '_' in entries[j].0) ==> r.Ok?
    ensures r.Ok? ==> exists k :: (0 <= k < |entries| &&
      (forall j :: 0 <= j < |entries| ==> entries[k].1 <= entries[j].1) &&
      (forall j :: 0 <= j < k ==> entries[k].1 < entries[j].1) &&
      ChooseAction(entries[k].0) == r)
  {
    match FirstMinimal(Values(entries))
    case None => ChooseAction("")
    case Some(k) => ChooseAction(entries[k].0)
  }
}

=== FILE: upstream_nodes.dfy ===
/** `identify_correct_reg_node`: for every cluster of buses with violations,
    the nodes that lie on the path from the source bus to EVERY bus of the
    cluster -- the candidate places for a new regulator.  The graph search is
    the parameter `shortestPath`, which gives the source-to-bus path as a
    node list. */
module UpstreamNodes {
  import opened Outcomes
  import opened BusNames

  /** `x` lies on each of the paths. */
  predicate OnAll(x: string, paths: seq<seq<string>>) {
    forall k :: 0 <= k < |paths| ==> x in paths[k]
  }

  /** The candidates that lie on every path, in the candidates' order. */
  function KeepCommon(candidates: seq<string>, paths: seq<seq<string>>): (r: seq<string>)
    ensures |r| <= |candidates|
    ensures forall x :: x in r <==> x in candidates && OnAll(x, paths)
    ensures NoDuplicates(candidates) ==> NoDuplicates(r)
    ensures |candidates| > 0 && OnAll(candidates[0], paths) ==> |r| > 0 && r[0] == candidates[0]
  {
    if |candidates| == 0 then []
    else
      var prev := KeepCommon(candidates[..|candidates| - 1], paths);
      var c := candidates[|candidates| - 1];
      assert forall x :: x in candidates[..|candidates| - 1] ==> x in candidates;
      if OnAll(c, paths) then
        assert |candidates| > 1 ==> candidates[..|candidates| - 1][0] == candidates[0];
        prev + [c]
      else prev
  }

  /** The filter keeps the candidates' relative order: whatever comes first
      among the kept nodes came first among the candidates. */
  lemma {:induction false} KeepCommonKeepsOrder(candidates: seq<string>, paths: seq<seq<string>>, i: nat, j: nat)
    requires i < j < |KeepCommon(candidates, paths)|
    ensures exists p, q :: (0 <= p < q < |candidates| &&
      candidates[p] == KeepCommon(candidates, paths)[i] && candidates[q] == KeepCommon(candidates, paths)[j])
  {
    var n := |candidates|;
    var front := candidates[..n - 1];
    var prev := KeepCommon(front, paths);
    var r := KeepCommon(candidates, paths);
    if j < |prev| {
      assert r[i] == prev[i] && r[j] == prev[j];
      KeepCommonKeepsOrder(front, paths, i, j);
      var p, q :| 0 <= p < q < |front| && front[p] == prev[i] && front[q] == prev[j];
      assert candidates[p] == r[i] && candidates[q] == r[j];
    } else {
      assert r[j] == candidates[n - 1] && r[i] == prev[i];
      assert prev[i] in front;
      var p :| 0 <= p < |front| && front[p] == prev[i];
      assert candidates[p] == r[i] && candidates[n - 1] == r[j];
    }
  }

  /** The common upstream nodes of one cluster, walking the last member's
      path as the program does. */
  function CommonUpstreamNodes(paths: seq<seq<string>>): (r: seq<string>)
    requires |paths| > 0
    ensures forall x :: x in r <==> OnAll(x, paths)
    ensures forall x :: x in r ==> x in paths[|paths| - 1]
  {
    KeepCommon(paths[|paths| - 1], paths)
  }

  /** The source-to-bus paths of a cluster's members, in member order. */
  function MemberPaths(members: seq<string>, shortestPath: string -> seq<string>): (r: seq<seq<string>>)
    ensures |r| == |members|
    ensures forall k :: 0 <= k < |members| ==> r[k] == shortestPath(members[k])
  {
    seq(|members|, k requires 0 <= k < |members| => shortestPath(members[k]))
  }

  /** `identify_correct_reg_node` over all clusters (each cluster has at
      least one member: the clustering assigns every bus a label). */
  function IdentifyRegNodes(clusters: seq<seq<string>>, shortestPath: string -> seq<string>): (r: seq<seq<string>>)
    requires forall k :: 0 <= k < |clusters| ==> |clusters[k]| > 0
    ensures |r| == |clusters|
    ensures forall k, x :: 0 <= k < |clusters| ==>
      (x in r[k] <==> forall b :: b in clusters[k] ==> x in shortestPath(b))
    ensures forall k :: 0 <= k < |clusters| ==>
      r[k] == KeepCommon(shortestPath(clusters[k][|clusters[k]| - 1]), MemberPaths(clusters[k], shortestPath))
  {
    var r := seq(|clusters|, k requires 0 <= k < |clusters| =>
      CommonUpstreamNodes(MemberPaths(clusters[k], shortestPath)));
    assert forall k, x :: 0 <= k < |clusters| ==>
      (OnAll(x, MemberPaths(clusters[k], shortestPath)) <==> forall b :: b in clusters[k] ==> x in shortestPath(b)) by {
      forall k, x | 0 <= k < |clusters|
        ensures OnAll(x, MemberPaths(clusters[k], shortestPath)) <==> forall b :: b in clusters[k] ==> x in shortestPath(b)
      {
        var ps := MemberPaths(clusters[k], shortestPath);
        if OnAll(x, ps) {
          forall b | b in clusters[k] ensures x in shortestPath(b) {
            var m :| 0 <= m < |clusters[k]| && clusters[k][m] == b;
            assert x in ps[m];
          }
        }
      }
    }
    r
  }

  /** When every path starts at the source, the source is the first common
      node of every cluster -- the node `add_new_reg_common_nodes` skips
      because it already carries the substation tap changer. */
  lemma SourceIsFirstCommonNode(clusters: seq<seq<string>>, shortestPath: string -> seq<string>, source: string)
    requires forall k :: 0 <= k < |clusters| ==> |clusters[k]| > 0
    requires forall k, m :: 0 <= k < |clusters| && 0 <= m < |clusters[k]| ==>
      |shortestPath(clusters[k][m])| > 0 && shortestPath(clusters[k][m])[0] == source
    ensures forall k :: 0 <= k < |clusters| ==>
      |IdentifyRegNodes(clusters, shortestPath)[k]| > 0 && IdentifyRegNodes(clusters, shortestPath)[k][0] == source
  {
    var r := IdentifyRegNodes(clusters, shortestPath);
    forall k | 0 <= k < |clusters|
      ensures |r[k]| > 0 && r[k][0] == source
    {
      var ps := MemberPaths(clusters[k], shortestPath);
      var last := ps[|ps| - 1];
      assert OnAll(last[0], ps) by {
        forall m | 0 <= m < |ps| ensures last[0] in ps[m] {
          assert ps[m][0] == source;
        }
      }
      assert r[k] == KeepCommon(last, ps);
    }
  }

  /** The nodes `add_new_reg_common_nodes` trials for one cluster: the common
      nodes other than the source bus (compared case-insensitively) that carry
      no transformer yet, in path order.  Whether a transformer touches a node
      is the parameter `hasTransformer`. */
  function TrialNodes(common: seq<string>, source: string, hasTransformer: string -> bool): (r: seq<string>)
    ensures forall x :: x in r <==> x in common && Lower(x) != Lower(source) && !hasTransformer(x)
    ensures |r| <= |common|
    ensures NoDuplicates(common) ==> NoDuplicates(r)
  {
    if |common| == 0 then []
    else
      var prev := TrialNodes(common[..|common| - 1], source, hasTransformer);
      var node := common[|common| - 1];
      assert forall x :: x in common[..|common| - 1] ==> x in common;
      if Lower(node) == Lower(source) || hasTransformer(node) then prev else prev + [node]
  }

  /** The trials follow the common nodes' path order: whatever is trialled
      first comes first on the path. */
  lemma {:induction false} TrialNodesKeepsOrder(common: seq<string>, source: string, hasTransformer: string -> bool, i: nat, j: nat)
    requires i < j < |TrialNodes(common, source, hasTransformer)|
    ensures exists p, q :: (0 <= p < q < |common| &&
      common[p] == TrialNodes(common, source, hasTransformer)[i] &&
      common[q] == TrialNodes(common, source, hasTransformer)[j])
  {
    var n := |common|;
    var front := common[..n - 1];
    var prev := TrialNodes(front, source, hasTransformer);
    var r := TrialNodes(common, source, hasTransformer);
    if j < |prev| {
      assert r[i] == prev[i] && r[j] == prev[j];
      TrialNodesKeepsOrder(front, source, hasTransformer, i, j);
      var p, q :| 0 <= p < q < |front| && front[p] == prev[i] && front[q] == prev[j];
      assert common[p] == r[i] && common[q] == r[j];
    } else {
      assert r[j] == common[n - 1] && r[i] == prev[i];
      assert prev[i] in front;
      var p :| 0 <= p < |front| && front[p] == prev[i];
      assert common[p] == r[i] && common[n - 1] == r[j];
    }
  }

  /** The source bus itself is never trialled, so with paths that start at
      the source the first common node of every cluster is skipped. */
  lemma SourceNeverTrialled(common: seq<string>, source: string, hasTransformer: string -> bool)
    ensures source !in TrialNodes(common, source, hasTransformer)
  {
  }
}

=== FILE: violations.dfy ===
/** The classification part of `check_voltage_violations_multi_tps`: for
    every test time point and every bus, the per-unit phase voltages the solver
    reports (given here as input) are compared with the ANSI "Range B" band,
    violations are counted and weighted, and the violating buses are collected
    once each.  The severity triple is the objective the upgrade search
    minimises. */
module Violations {
  import opened Outcomes
  import opened Extrema
  import opened BusNames

  /** The "Range B upper" and "Range B lower" per-unit limits. */
  datatype Settings = Settings(upper: real, lower: real)

  /** The result of one check.  `indices` is `severity_indices`. */
  datatype Report = Report(count: nat, severity: real, buses: seq<string>, indices: seq<real>)

  /** `V[t][i]` holds the phase voltages of bus `names[i]` at time point `t`;
      every bus has at least one phase. */
  predicate WellShaped(names: seq<string>, V: seq<seq<seq<real>>>) {
    forall t :: 0 <= t < |V| ==> |V[t]| == |names| && forall i :: 0 <= i < |V[t]| ==> |V[t][i]| > 0
  }

  /** How far the highest phase is above the upper limit, or 0. */
  function MaxDeviation(v: seq<real>, s: Settings): real
    requires |v| > 0
  {
    if MaxOf(v) > s.upper then MaxOf(v) - s.upper else 0.0
  }

  /** For a lowest phase below the lower limit, its distance to the UPPER
      limit (as the source computes it), or 0. */
  function MinDeviation(v: seq<real>, s: Settings): real
    requires |v| > 0
  {
    if MinOf(v) < s.lower then s.upper - MinOf(v) else 0.0
  }

  /** A bus counts at a time point when its two deviations differ; a tie,
      including the in-band case of two zeros, does not count.  (A bus
      without phases never reaches the test: the check requires phases.) */
  predicate IsViolation(v: seq<real>, s: Settings) {
    |v| > 0 && MaxDeviation(v, s) != MinDeviation(v, s)
  }

  /** The severity a counted bus contributes: the larger deviation. */
  function Deviation(v: seq<real>, s: Settings): real {
    if |v| == 0 then 0.0
    else if MaxDeviation(v, s) > MinDeviation(v, s) then MaxDeviation(v, s)
    else if MinDeviation(v, s) > MaxDeviation(v, s) then MinDeviation(v, s)
    else 0.0
  }

  /** With a sensible band (lower <= upper), a counted bus always adds a
      positive severity. */
  lemma DeviationPositive(v: seq<real>, s: Settings)
    requires |v| > 0
    requires s.lower <= s.upper
    requires IsViolation(v, s)
    ensures Deviation(v, s) > 0.0
  {
  }

  /** Number of violating buses in one time point. */
  function RowCount(row: seq<seq<real>>, s: Settings): nat
  {
    if |row| == 0 then 0
    else RowCount(row[..|row| - 1], s) + (if IsViolation(row[|row| - 1], s) then 1 else 0)
  }

  /** Sum of the deviations of the violating buses of one time point. */
  function RowSeverity(row: seq<seq<real>>, s: Settings): real
  {
    if |row| == 0 then 0.0
    else RowSeverity(row[..|row| - 1], s) + (if IsViolation(row[|row| - 1], s) then Deviation(row[|row| - 1], s) else 0.0)
  }

  /** Number of (time point, bus) samples that violate. */
  function TotalCount(V: seq<seq<seq<real>>>, s: Settings): nat
  {
    if |V| == 0 then 0
    else TotalCount(V[..|V| - 1], s) + RowCount(V[|V| - 1], s)
  }

  /** Sum of the deviations of all violating samples. */
  function TotalSeverity(V: seq<seq<seq<real>>>, s: Settings): real
  {
    if |V| == 0 then 0.0
    else TotalSeverity(V[..|V| - 1], s) + RowSeverity(V[|V| - 1], s)
  }

  /** Lower-cased names of the buses that violate in one time point. */
  function RowFlagged(names: seq<string>, row: seq<seq<real>>, s: Settings): set<string>
  {
    set i | 0 <= i < |row| && i < |names| && IsViolation(row[i], s) :: Lower(names[i])
  }

  /** Lower-cased names of the buses that violate at some time point. */
  function Flagged(names: seq<string>, V: seq<seq<seq<real>>>, s: Settings): set<string>
  {
    set t, i | 0 <= t < |V| && 0 <= i < |V[t]| && i < |names| && IsViolation(V[t][i], s) :: Lower(names[i])
  }

  lemma RowFlaggedStep(names: seq<string>, row: seq<seq<real>>, s: Settings, i: nat)
    requires i < |row| && i < |names|
    ensures RowFlagged(names, row[..i + 1], s) ==
      RowFlagged(names, row[..i], s) + (if IsViolation(row[i], s) then {Lower(names[i])} else {})
  {
    var left := RowFlagged(names, row[..i + 1], s);
    var right := RowFlagged(names, row[..i], s) + (if IsViolation(row[i], s) then {Lower(names[i])} else {});
    forall x | x in left
      ensures x in right
    {
      var k :| 0 <= k < i + 1 && k < |names| && IsViolation(row[..i + 1][k], s) && x == Lower(names[k]);
      if k < i {
        assert row[..i][k] == row[k];
      }
    }
    forall x | x in right
      ensures x in left
    {
      if x in RowFlagged(names, row[..i], s) {
        var k :| 0 <= k < i && k < |names| && IsViolation(row[..i][k], s) && x == Lower(names[k]);
        assert row[..i + 1][k] == row[k];
      } else {
        assert row[..i + 1][i] == row[i];
      }
    }
  }

  lemma FlaggedStep(names: seq<string>, V: seq<seq<seq<real>>>, s: Settings, t: nat)
    requires t < |V|
    ensures Flagged(names, V[..t + 1], s) == Flagged(names, V[..t], s) + RowFlagged(names, V[t], s)
  {
    var left := Flagged(names, V[..t + 1], s);
    var right := Flagged(names, V[..t], s) + RowFlagged(names, V[t], s);
    forall x | x in left
      ensures x in right
    {
      var u, k :| 0 <= u < t + 1 && 0 <= k < |V[..t + 1][u]| && k < |names| && IsViolation(V[..t + 1][u][k], s) && x == Lower(names[k]);
      if u < t {
        assert V[..t][u] == V[u];
      }
    }
    forall x | x in right
      ensures x in left
    {
      if x in Flagged(names, V[..t], s) {
        var u, k :| 0 <= u < t && 0 <= k < |V[..t][u]| && k < |names| && IsViolation(V[..t][u][k], s) && x == Lower(names[k]);
        assert V[..t + 1][u] == V[u];
      } else {
        var k :| 0 <= k < |V[t]| && k < |names| && IsViolation(V[t][k], s) && x == Lower(names[k]);
        assert V[..t + 1][t] == V[t];
      }
    }
  }

  /** `severity_indices`: the violation count, the summed deviations, and
      their product, which is the objective minimised by the upgrade search. */
  function SeverityIndices(count: nat, severity: real): (r: seq<real>)
    ensures |r| == 3
    ensures r[0] == count as real && r[1] == severity
    ensures r[2] == r[0] * r[1]
  {
    [count as real, severity, count as real * severity]
  }

  /** Extending the processed time points by one adds that time point's
      count, severity and flagged buses. */
  lemma PrefixStep(names: seq<string>, V: seq<seq<seq<real>>>, s: Settings, t: nat)
    requires t < |V|
    ensures TotalCount(V[..t + 1], s) == TotalCount(V[..t], s) + RowCount(V[t], s)
    ensures TotalSeverity(V[..t + 1], s) == TotalSeverity(V[..t], s) + RowSeverity(V[t], s)
    ensures Flagged(names, V[..t + 1], s) == Flagged(names, V[..t], s) + RowFlagged(names, V[t], s)
  {
    assert V[..t + 1][..t] == V[..t];
    FlaggedStep(names, V, s, t);
  }

  /** The running totals of the check. */
  datatype Tally = Tally(count: nat, severity: real, buses: seq<string>)

  /** One bus at one time point: the source's two deviation tests, then the
      count, the severity and the first-violation append. */
  method TallyBus(tally: Tally, name: string, v: seq<real>, s: Settings) returns (r: Tally)
    requires |v| > 0
    requires NoDuplicates(tally.buses)
    ensures r.count == tally.count + (if IsViolation(v, s) then 1 else 0)
    ensures r.severity == tally.severity + (if IsViolation(v, s) then Deviation(v, s) else 0.0)
    ensures NoDuplicates(r.buses)
    ensures forall x :: x in r.buses <==> x in tally.buses || (IsViolation(v, s) && x == Lower(name))
  {
    var maxDev := 0.0;
    var minDev := 0.0;
    if MaxOf(v) > s.upper {
      maxDev := MaxOf(v) - s.upper;
    }
    if MinOf(v) < s.lower {
      minDev := s.upper - MinOf(v);
    }
    var bus := Lower(name);
    r := tally;
    if maxDev > minDev {
      r := r.(count := r.count + 1, severity := r.severity + maxDev);
      if bus !in r.buses {
        r := r.(buses := r.buses + [bus]);
      }
    } else if minDev > maxDev {
      r := r.(count := r.count + 1, severity := r.severity + minDev);
      if bus !in r.buses {
        r := r.(buses := r.buses + [bus]);
      }
    }
  }

  /** All buses of one time point, in order. */
  method TallyTimePoint(tally: Tally, names: seq<string>, row: seq<seq<real>>, s: Settings) returns (r: Tally)
    requires |row| == |names|
    requires forall i :: 0 <= i < |row| ==> |row[i]| > 0
    requires NoDuplicates(tally.buses)
    ensures r.count == tally.count + RowCount(row, s)
    ensures r.severity == tally.severity + RowSeverity(row, s)
    ensures NoDuplicates(r.buses)
    ensures forall x :: x in r.buses <==> x in tally.buses || x in RowFlagged(names, row, s)
  {
    r := tally;
    var i := 0;
    while i < |names|
      invariant 0 <= i <= |names|
      invariant r.count == tally.count + RowCount(row[..i], s)
      invariant r.severity == tally.severity + RowSeverity(row[..i], s)
      invariant NoDuplicates(r.buses)
      invariant forall x :: x in r.buses <==> x in tally.buses || x in RowFlagged(names, row[..i], s)
    {
      r := TallyBus(r, names[i], row[i], s);
      assert row[..i + 1][..i] == row[..i];
      RowFlaggedStep(names, row, s, i);
      i := i + 1;
    }
    assert row[..|names|] == row;
  }

  /** The check itself: time points in order, buses in order, counting each
      violating sample, adding its deviation, and appending its lower-cased
      bus name unless already listed. */
  method CheckVoltageViolations(names: seq<string>, V: seq<seq<seq<real>>>, s: Settings) returns (r: Report)
    requires WellShaped(names, V)
    ensures r.count == TotalCount(V, s)
    ensures r.severity == TotalSeverity(V, s)
    ensures r.indices == SeverityIndices(r.count, r.severity)
    ensures NoDuplicates(r.buses)
    ensures forall x :: x in r.buses <==> x in Flagged(names, V, s)
  {
    var tally := Tally(0, 0.0, []);
    var t := 0;
    while t < |V|
      invariant 0 <= t <= |V|
      invariant tally.count == TotalCount(V[..t], s)
      invariant tally.severity == TotalSeverity(V[..t], s)
      invariant NoDuplicates(tally.buses)
      invariant forall x :: x in tally.buses <==> x in Flagged(names, V[..t], s)
    {
      tally := TallyTimePoint(tally, names, V[t], s);
      PrefixStep(names, V, s, t);
      t := t + 1;
    }
    assert V[..|V|] == V;
    r := Report(tally.count, tally.severity, tally.buses, SeverityIndices(tally.count, tally.severity));
  }

  lemma {:induction false} RowSeverityMeasuresRowCount(row: seq<seq<real>>, s: Settings)
    requires s.lower <= s.upper
    ensures RowSeverity(row, s) >= 0.0
    ensures RowSeverity(row, s) == 0.0 <==> RowCount(row, s) == 0
  {
    if |row| > 0 {
      var last := row[|row| - 1];
      RowSeverityMeasuresRowCount(row[..|row| - 1], s);
      if IsViolation(last, s) {
        DeviationPositive(last, s);
      }
    }
  }

  lemma {:induction false} TotalSeverityMeasuresTotalCount(V: seq<seq<seq<real>>>, s: Settings)
    requires s.lower <= s.upper
    ensures TotalSeverity(V, s) >= 0.0
    ensures TotalSeverity(V, s) == 0.0 <==> TotalCount(V, s) == 0
  {
    if |V| > 0 {
      var prefix := V[..|V| - 1];
      TotalSeverityMeasuresTotalCount(prefix, s);
      RowSeverityMeasuresRowCount(V[|V| - 1], s);
    }
  }

  /** With a sensible band, the objective `severity_indices[2]` is zero
      exactly when no sample violates. */
  lemma ObjectiveZeroIffNoViolation(V: seq<seq<seq<real>>>, s: Settings)
    requires s.lower <= s.upper
    ensures TotalCount(V, s) as real * TotalSeverity(V, s) >= 0.0
    ensures TotalCount(V, s) as real * TotalSeverity(V, s) == 0.0 <==> TotalCount(V, s) == 0
  {
    TotalSeverityMeasuresTotalCount(V, s);
    var c := TotalCount(V, s) as real;
    var sev := TotalSeverity(V, s);
    if c > 0.0 {
      assert c * sev > 0.0;
    }
  }
}
